=== FILE: README.md ===
# RaahVia navigation core in Dafny

RaahVia is an indoor campus navigator. A visitor scans the QR sticker at an
entrance or picks a zone on the dashboard. They then choose a destination
(the auditorium stage, a Green Room side, the emergency exit). The map
screen walks them along a polyline path. It counts steps from the
accelerometer (or from a button), turns the step count into a position on
the path, and announces arrival. A small directory chat answers questions
about people and places. A socket server keeps tables of who is online and
which navigation sessions are active.

This project models that behaviour and proves properties about it. Each
file is one part of the application:

| file | models |
|---|---|
| `text.dfy` | the JavaScript string operations the screens use: `trim`, ASCII `toLowerCase`, `includes`, first-match `replace`, one-character `split` |
| `seqs.dfy` | `Array.prototype.find` and `filter` |
| `location.dfy` | the destination record, its branch options and path points |
| `path_parsing.dfy` | `parsePathPoints` with the `Number` conversion, and the paths of the fixed records |
| `dead_reckoning.dfy` | `calculateCurrentPosition`, the progress bar and the compass heading |
| `navigation_session.dfy` | the map screen's session state: step detection, arrival, pause, stop, manual steps, mode toggle |
| `floor_selection.dfy` | the auditorium destination table, its filter, the branch merge and the selection payload |
| `qr_scanner.dfy` | the QR code table and the scan latch |
| `dashboard.dfy` | zone search, search routing, pharmacy floor choice and the scan alert |
| `ai_assistant.dfy` | the directory chat: normalisation, synonym expansion, the ordered lookup and the history |
| `server.dfy` | the online-user and session tables of the socket server |

How the model is shaped:

- State that the source changes in place becomes a class:
  - the navigation session;
  - each screen's state;
  - the server's tables.
- Each handler becomes a method whose `ensures` states the whole new state.
- Loops in the source stay loops, each proved against a specification function:
  - the segment walk of `calculateCurrentPosition`;
  - the synonym walk of `getSmartResponse`;
  - the summary listing and the disconnect clean-up on the server.
- Spoken announcements become an appended log.
- `onNavigate`, `onSelect` and `onScanSuccess` calls become appended logs too.
- Clocks (`Date.now()`), sensor samples and the directory tables are parameters.

A few places where the model follows the code rather than what one might expect:

- The stop button does not gate step counting (`HandleStop` changes only `isNavigating`).
- Manual steps have no pause, arrival or cap guard.
- The walked distance is in metres but is compared directly with segment lengths in map units, as the code does.
- A zero-length segment reached by the walk divides 0 by 0 in the code. The model returns `NonFinite` for it rather than assuming it away.
- The accelerometer listener's parameter is called `data`. It hides the destination record, so the listener's arrival check reads the sample's `maxSteps`, which is `undefined`, and never holds. A sensor step only adds one. Arrival then comes from the arrival effect on the next render (`OnAccelerometer`, `ShadowedArrivalCheck`, `SensorStepAndRender`). See "## Findings".
- The sensor effect re-runs whenever `isPaused` or `hasArrived` changes. Its cleanup stops speech and the new subscription speaks the guidance again and restarts the debounce clock. So the pause and resume announcements are cut off (`PauseAndRender`). So is the arrival announcement, whether the arrival came from a sensor step and the arrival effect (`SensorStepAndRender`) or from a manual step (`ManualStepAndRender`).
- The scanner screen uses the corrected own-code lookup. See "## Findings" and "## Left out".

## Model

| member | source | states |
|---|---|---|
| Text.Trim | screens/AiAssistant.js:23 | the result is the slice of the input that starts after its leading whitespace; everything after the slice is whitespace; the slice neither starts nor ends with whitespace; it is empty exactly when the input is all whitespace |
| Text.TrimIdempotent | screens/AiAssistant.js:23 | trimming a trimmed string changes nothing |
| Text.ToLower | screens/AiAssistant.js:23 | lowercasing keeps the length and lowers each ASCII letter, leaving every other character alone |
| Text.IncludesIff | screens/FloorSelection.js:116-118 | `includes` holds exactly when the needle occurs at some index |
| Text.ReplaceFirst | screens/AiAssistant.js:36 | `replace` with a string pattern substitutes only the first occurrence and leaves the text alone when the pattern is absent |
| Text.Split | screens/MapScreen.js:40 | `split` gives separator-free pieces that join back to the input |
| Text.SplitJoin | screens/MapScreen.js:40-41 | splitting joined separator-free pieces gives the pieces back |
| Seqs.FindFirst | screens/AiAssistant.js:41-46 | `find` returns the first index whose element satisfies the predicate, or none when no element does |
| Seqs.FindFirstAt | screens/AiAssistant.js:41-46 | an index whose element matches, with no earlier match, is the one `find` returns |
| Seqs.Filter | screens/FloorSelection.js:116-118 | `filter` keeps only elements that satisfy the predicate, and every one that does |
| Seqs.FilterAppend | screens/FloorSelection.js:116-118 | filtering keeps the input order: it distributes over concatenation |
| PathParsing.ParseNumber | screens/MapScreen.js:41 | `Number` reads blank text as 0; a negative value needs a leading minus; text starting with a digit reads as the unsigned literal |
| PathParsing.ParsePoint | screens/MapScreen.js:41-42 | a piece without a comma gives no point; a point read from a piece has its first two comma-separated fields as coordinates |
| PathParsing.ParsePathPoints | screens/MapScreen.js:39-44 | one point per space-separated piece, in order; no path only when some piece is unreadable |
| PathParsing.ParseNumberOfNatToString | screens/MapScreen.js:41 | `Number` reads back the decimal rendering of any natural number |
| PathParsing.ParseNumberOfDecimal | screens/MapScreen.js:41 | `Number` reads `w.f` as `w` plus `f` scaled by its digit count |
| PathParsing.ParseNatPoint | screens/MapScreen.js:41 | a piece `x,y` of whole numbers reads as the point (x, y) |
| PathParsing.ParseDecimalPoint | screens/MapScreen.js:41 | a piece `x,w.f` reads as the point (x, w.f) |
| PathParsing.ParsePointOf | screens/MapScreen.js:41 | a piece made of two readable comma-free numbers reads as their point |
| PathParsing.PathOfPieces | screens/MapScreen.js:39-46 | a path string made of readable pieces joined by spaces reads as those points, in order |
| PathParsing.StagePath | screens/FloorSelection.js:29 | the stage path reads as (50, 95), (50, 3.2) |
| PathParsing.GreenRoomPath | screens/FloorSelection.js:45 | the Green Room path reads as its four points |
| PathParsing.LeftGreenRoomPath | screens/FloorSelection.js:54 | the left Green Room path reads as its four points |
| PathParsing.RightGreenRoomPath | screens/FloorSelection.js:60 | the right Green Room path reads as its four points |
| PathParsing.EmergencyExitPath | screens/FloorSelection.js:76 | the emergency exit path reads as its four points |
| PathParsing.PharmacyPath | screens/QRScanner.js:35 | the pharmacy ground floor path reads as (10, 50), (90, 50) |
| DeadReckoning.Interpolate | screens/MapScreen.js:73-77 | the position is non-finite exactly for a zero-length segment; otherwise it is the segment's start at distance 0 and its end at the full length |
| DeadReckoning.PositionAt | screens/MapScreen.js:51-83 | a non-finite position arises only when some segment has zero length |
| DeadReckoning.FirstReach | screens/MapScreen.js:61-71 | the reached segment is the first whose far end is at least the walked distance; none when every segment ends before it |
| DeadReckoning.CalculateCurrentPosition | screens/MapScreen.js:51-83 | the segment walk returns exactly the position the segment-wise definition gives |
| DeadReckoning.ReachIffWithinPath | screens/MapScreen.js:61-82 | no segment is reached exactly when the walked distance exceeds the summed segment lengths |
| DeadReckoning.EndPointReturned | screens/MapScreen.js:51-82 | the target point is returned with fewer than two points, once steps reach `maxSteps`, or when the walk overshoots the path |
| DeadReckoning.OnReachedSegment | screens/MapScreen.js:61-79 | an interpolated position lies on the reached segment at a ratio in [0, 1], with earlier segments ending before the walked distance and this one at or after it |
| DeadReckoning.ZeroStepsAtFirstPoint | screens/MapScreen.js:56-78 | with no steps and a first segment of non-zero length the position is the first path point |
| DeadReckoning.ReachedSegmentMonotone | screens/MapScreen.js:56-71 | walking further never puts the walker on an earlier segment |
| DeadReckoning.PrefixMonotone | screens/MapScreen.js:61-79 | the accumulated distance never decreases along the path |
| DeadReckoning.ProgressPercentage | screens/MapScreen.js:227 | progress lies in [0, 100], is 100 exactly when steps reach `maxSteps`, and is otherwise steps / maxSteps × 100 |
| DeadReckoning.ProgressMonotone | screens/MapScreen.js:227 | more steps never show less progress |
| DeadReckoning.HeadingFromAngle | screens/MapScreen.js:139-144 | for an `atan2` angle in [-180, 180] the heading lies in [0, 360), and it differs from angle − 90 by whole turns |
| Navigation.IsStepSample | screens/MapScreen.js:111-116 | for every magnitude of the sample, the sample is a step exactly when that magnitude exceeds 2.5 |
| Navigation.ShadowedArrivalCheck | screens/MapScreen.js:107-127 | the listener's arrival check reads `maxSteps` from the sample, which has none, so the comparison never holds |
| Navigation.SquaredComparison | screens/MapScreen.js:111-116 | comparing the squared magnitude with 2.5² decides the same as comparing the magnitude with 2.5 |
| Navigation.NavigationSession.constructor | screens/MapScreen.js:29-36 | the session starts with no steps, navigating, not paused, automatic mode, heading 0, and the guidance spoken |
| Navigation.NavigationSession.Resubscribe | screens/MapScreen.js:94-166 | re-running the sensor effect stops speech, speaks the guidance again and restarts the debounce clock, changing nothing else |
| Navigation.NavigationSession.AddStep | screens/MapScreen.js:188-199 | the manual button's updater adds exactly one and, when the count reaches `maxSteps`, marks arrival, stops navigating and announces it |
| Navigation.NavigationSession.OnAccelerometer | screens/MapScreen.js:107-134 | a sample counts exactly when not paused, not arrived, not manual, above the threshold and more than 300 ms after `lastStepTime`; a counted step adds exactly one and never marks arrival or speaks; accepted step times stay pairwise more than 300 ms apart |
| Navigation.NavigationSession.OnAccelerometerArriving | screens/MapScreen.js:107-134 | the listener with its arrival check made against the destination: the same gate and debounce, and a step that reaches `maxSteps` marks arrival, stops navigating and announces it |
| Navigation.NavigationSession.SensorStepAndRender | screens/MapScreen.js:94-175 | after a sample and the render it causes, a count at or past `maxSteps` has arrived; a step that reaches it speaks the arrival, then stop, then the guidance again; below `maxSteps` nothing is spoken and `isNavigating` is unchanged; the step time is recorded exactly when the sample counts, and the debounce clock moves to now only on a count or an arrival; pause, mode and heading are unchanged |
| Navigation.NavigationSession.PauseAndRender | screens/MapScreen.js:94-180 | pause flips, and the effect re-run speaks the pause announcement, then stop, then the guidance again, restarting the debounce clock; every other field is unchanged |
| Navigation.NavigationSession.ManualStepAndRender | screens/MapScreen.js:94-200 | a manual step that arrives speaks the arrival, then stop, then the guidance again; a step past arrival only announces it again; a step short of `maxSteps` says nothing and leaves `isNavigating` alone; pause, mode, heading and sensor step times are unchanged |
| Navigation.SensorStepLeavesArrivalPending | screens/MapScreen.js:107-134 | with a one-step destination, a qualifying sample gives one step and no arrival |
| Navigation.IntendedSensorStepArrives | screens/MapScreen.js:107-134 | with the corrected listener, the same sample gives one step and arrival |
| Navigation.NavigationSession.OnMagnetometer | screens/MapScreen.js:136-150 | the heading follows the angle unless paused, and stays in [0, 360) |
| Navigation.NavigationSession.ArrivalEffect | screens/MapScreen.js:169-175 | arrival is marked only when the count reached `maxSteps` and arrival was not yet marked; otherwise nothing changes |
| Navigation.NavigationSession.HandlePause | screens/MapScreen.js:177-180 | pause flips and announces the new state; nothing else changes |
| Navigation.NavigationSession.HandleStop | screens/MapScreen.js:182-185 | stop clears only `isNavigating` and announces it |
| Navigation.NavigationSession.HandleManualStep | screens/MapScreen.js:187-200 | a manual step adds exactly one, with no pause, arrival or cap guard, and arrives in line once the count reaches `maxSteps` |
| Navigation.NavigationSession.ToggleStepMode | screens/MapScreen.js:202-205 | the step mode flips and the new mode is announced |
| FloorSelection.IsAuditoriumEntrance | screens/FloorSelection.js:90-92 | the banner shows exactly when `qrData` contains "Auditorium Entrance" or "aud_entrance", or `scannedLocation` contains "aud_entrance" |
| FloorSelection.MergeOption | screens/FloorSelection.js:98-106 | the merged record takes id, title, path and target from the option and every other field from the base; putting the base's four fields back gives the base |
| FloorSelection.MergeOptionLastWins | screens/FloorSelection.js:98-106 | merging the same option twice is merging it once, and a later option overrides an earlier one |
| FloorSelection.MergeKeepsPathConsistent | screens/FloorSelection.js:98-106 | an option whose path runs from the base's start to its own target gives a merged record whose path does too |
| FloorSelection.OrDefault | screens/FloorSelection.js:110-111 | `v \|\| fallback`: a present non-empty value is kept, otherwise the fallback |
| FloorSelection.SelectionFor | screens/FloorSelection.js:108-113 | the payload carries the chosen record, `scannedLocation` or "aud_entrance", and `area` or "Auditorium Indoor Navigation" |
| FloorSelection.FilteredDestinations | screens/FloorSelection.js:116-118 | a record is listed exactly when it is in the table and its lowercased title includes the lowercased query |
| FloorSelection.FilteredExactly | screens/FloorSelection.js:116-118 | a record is listed exactly when its lowercased title contains the lowercased query |
| FloorSelection.FilteredInOrder | screens/FloorSelection.js:116-118 | the filter keeps the table's order |
| FloorSelection.EmptyQueryKeepsAll | screens/FloorSelection.js:116-118 | an empty query lists the whole table |
| FloorSelection.GreenRoomFound | screens/FloorSelection.js:256-263 | searching the table for "aud_green_room" finds the Green Room record |
| FloorSelection.AuditoriumPathsConsistent | screens/FloorSelection.js:17-81 | every record's path, and every Green Room side's path, starts at the record's start and ends at its target |
| FloorSelection.AuditoriumRecordsWellFormed | screens/FloorSelection.js:17-81 | only the record that offers options lists any, and the ids are distinct |
| FloorSelection.FloorSelectionScreen.constructor | screens/FloorSelection.js:84-87 | nothing selected, empty search, chooser closed |
| FloorSelection.FloorSelectionScreen.SetSearchQuery | screens/FloorSelection.js:86 | the search box holds the typed text |
| FloorSelection.FloorSelectionScreen.HandleDestinationSelect | screens/FloorSelection.js:94-114 | the selection is the base, or the base merged with the option, and exactly that payload is handed on |
| FloorSelection.FloorSelectionScreen.PressCard | screens/FloorSelection.js:183-189 | a record with options opens the chooser and selects nothing; any other record is selected and handed on |
| FloorSelection.FloorSelectionScreen.PressOption | screens/FloorSelection.js:260-265 | choosing a side closes the chooser and selects the Green Room merged with that side |
| FloorSelection.FloorSelectionScreen.CloseChooser | screens/FloorSelection.js:244-246 | the chooser closes |
| QRScanner.LookupAsWritten | screens/QRScanner.js:56-58 | the bracket lookup yields the table's record, an inherited member for prototype names, or undefined |
| QRScanner.PrototypeKeyAccepted | screens/QRScanner.js:56-58 | the code "constructor" is not in the table yet passes the truthiness check |
| QRScanner.LookupLocation | screens/QRScanner.js:56-58 | the lookup finds a record exactly for the table's own codes, and that record is the table's |
| QRScanner.LookupsAgreeOnTable | screens/QRScanner.js:56-58 | the two lookups differ exactly on inherited names that are not codes |
| QRScanner.LocationKeysAreIds | screens/QRScanner.js:9-38 | each code equals its record's id |
| QRScanner.LocationDataConsistent | screens/QRScanner.js:9-38 | each record's path starts at its start and ends at its target |
| QRScanner.ScannerScreen.constructor | screens/QRScanner.js:40-42 | the latch starts open with no alert and nothing delivered |
| QRScanner.ScannerScreen.HandleBarCodeScanned | screens/QRScanner.js:51-68 | a latched scan changes nothing; otherwise the latch closes and a known code delivers exactly its record (when there is a callback), an unknown one raises the alert |
| QRScanner.ScannerScreen.TryAgain | screens/QRScanner.js:64-66 | "Try Again" closes the alert and re-opens the latch |
| QRScanner.ScanSequence | screens/QRScanner.js:51-68 | however scans and retries interleave, at most one record is delivered |
| Dashboard.FilteredZones | screens/Dashboard.js:86-88 | an empty query lists nothing; otherwise a zone is listed exactly when it is a zone whose lowercased title includes the lowercased query |
| Dashboard.FilteredZonesExactly | screens/Dashboard.js:86-88 | an empty query lists nothing; otherwise a zone is listed exactly when its lowercased title contains the lowercased query |
| Dashboard.FilteredZonesInOrder | screens/Dashboard.js:86-88 | the filter keeps the zones' order |
| Dashboard.StartNavigationAlert | screens/Dashboard.js:40-46 | the alert is visible, aimed at the zone id, and its message names the zone |
| Dashboard.RouteFor | screens/Dashboard.js:65-74 | pharmacy titles open the floors; otherwise "aud" ids raise the alert; everything else opens the map |
| Dashboard.ZoneTarget | screens/Dashboard.js:76-84 | the three floors map to their fixed title and code; any other id gives empty strings |
| Dashboard.PharmacyBlockOpensFloors | screens/Dashboard.js:35-67 | the pharmacy zone opens the floor chooser |
| Dashboard.AuditoriumZoneAlerts | screens/Dashboard.js:35-69 | the auditorium zone raises the scan alert |
| Dashboard.NoMainZoneOpensMap | screens/Dashboard.js:35-74 | no listed zone reaches the map branch |
| Dashboard.AlertTargetsAgainstScanner | screens/Dashboard.js:76-84 | the ground floor and auditorium alerts aim at codes the scanner knows; the upper floors' codes are unknown to it |
| Dashboard.DashboardScreen.constructor | screens/Dashboard.js:22-25 | empty search, chooser closed, alert hidden |
| Dashboard.DashboardScreen.SetSearchQuery | screens/Dashboard.js:22 | the search box holds the typed text |
| Dashboard.DashboardScreen.HandleStartNavigation | screens/Dashboard.js:40-46 | the alert becomes visible, aimed at the zone, naming it |
| Dashboard.DashboardScreen.HandleSearchSelection | screens/Dashboard.js:65-74 | the query is cleared, then exactly one of: floors opened, auditorium alert raised, map requested with the item |
| Dashboard.DashboardScreen.HandleZoneSelect | screens/Dashboard.js:76-84 | the chooser closes and the alert aims at the floor's code |
| Dashboard.DashboardScreen.ClosePharmacyOptions | screens/Dashboard.js:202 | the floor chooser closes |
| Dashboard.DashboardScreen.DismissAlert | screens/Dashboard.js:213-217 | the alert is hidden and cleared, and the scanner is requested for the old target only when there was one |
| AiAssistant.Normalize | screens/AiAssistant.js:23 | the normalised text has no ASCII capital, neither end is whitespace, and it is no longer than the input |
| AiAssistant.Expand | screens/AiAssistant.js:33-38 | text in which no synonym key triggers comes through unchanged |
| AiAssistant.SmartResponse | screens/AiAssistant.js:22-75 | an answer that carries a place carries one of the listed places |
| AiAssistant.NormalizeIdempotent | screens/AiAssistant.js:23 | normalising a normalised question changes nothing |
| AiAssistant.ExpandStepUntriggered | screens/AiAssistant.js:34-38 | a key that does not trigger leaves the text as it was |
| AiAssistant.ExpandStepTriggered | screens/AiAssistant.js:34-38 | a triggering key replaces only its first occurrence in the text expanded so far |
| AiAssistant.ExpandUntriggered | screens/AiAssistant.js:34-38 | text in which no key triggers comes through the expansion unchanged |
| AiAssistant.ExpandSynonyms | screens/AiAssistant.js:33-38 | the loop over the keys computes exactly the key-by-key expansion |
| AiAssistant.PersonnelFirst | screens/AiAssistant.js:40-53 | the first matching person answers, whatever the places say |
| AiAssistant.PlaceSecond | screens/AiAssistant.js:55-68 | with no person matching, the first matching place answers, carrying that place |
| AiAssistant.GreetingOrFallback | screens/AiAssistant.js:70-74 | with nothing matching, the answer is the greeting exactly when the text contains hi, hello, hey or start, else the fallback |
| AiAssistant.SmartResponseShape | screens/AiAssistant.js:40-74 | the answer is a person card exactly when some person matches, carries a place exactly when it is a map answer, and that place is from the table |
| AiAssistant.SmartResponseNormalized | screens/AiAssistant.js:22-23 | case and surrounding whitespace never change the answer |
| AiAssistant.GetSmartResponse | screens/AiAssistant.js:22-75 | the handler returns exactly the specified answer |
| AiAssistant.AppendPairKeepsShape | screens/AiAssistant.js:90 | appending a question and its answer keeps the history the welcome message followed by user/assistant pairs |
| AiAssistant.AssistantScreen.constructor | screens/AiAssistant.js:12-19 | empty input and a history of the welcome message alone |
| AiAssistant.AssistantScreen.SetInput | screens/AiAssistant.js:12 | the input box holds the typed text |
| AiAssistant.AssistantScreen.HandleSend | screens/AiAssistant.js:77-92 | blank input changes nothing; otherwise exactly the question and its answer are appended and the input is cleared |
| Server.RemoveId | backend/server.js:118 | the result holds no new ids and keeps every id other than the removed one |
| Server.RemoveIdDistinct | backend/server.js:118 | removing from a list without repeats leaves no repeats and no removed id |
| Server.RemoveIdAfter | backend/server.js:151-155 | removing an id that follows a prefix free of it leaves the prefix and the rest |
| Server.DistinctCardinality | backend/server.js:136 | a list without repeats has as many entries as its set |
| Server.KeptIds | backend/server.js:151-155 | the kept ids are exactly those not owned by the socket, without repeats when the input has none |
| Server.WithoutOwned | backend/server.js:151-155 | deleting the owned sessions one by one leaves exactly the sessions not both listed and owned, unchanged |
| Server.SessionsNotOwnedBy | backend/server.js:151-155 | exactly the sessions the socket does not own, unchanged |
| Server.Summaries | backend/server.js:137-142 | one summary per listed session, in order, with its id, user and location |
| Server.SessionIdFor | backend/server.js:62 | the id is the socket id, an underscore, then decimal digits that read back as the time |
| Server.SessionIdsDiffer | backend/server.js:62 | one socket starting at two different milliseconds gets two different session ids |
| Server.EndKeepsTable | backend/server.js:118 | deleting a session keeps the table well formed |
| Server.DisconnectStep | backend/server.js:151-155 | one step of the clean-up walk deletes the entry exactly when the socket owns it |
| Server.DisconnectLeavesValid | backend/server.js:151-155 | after the walk the table holds exactly the sessions the socket did not own, listed in their old order |
| Server.PresenceServer.constructor | backend/server.js:39-40 | both tables start empty |
| Server.PresenceServer.OrderMatchesSize | backend/server.js:136 | the session listing has as many entries as there are sessions |
| Server.PresenceServer.UserJoin | backend/server.js:48-57 | exactly the socket's entry is set, and the count is the table's size |
| Server.PresenceServer.NavigationStart | backend/server.js:61-79 | exactly one session with an empty route owned by the socket is stored under the id; a new id goes to the end of the listing |
| Server.PresenceServer.LocationUpdate | backend/server.js:82-101 | an unknown id changes nothing; a known one gets exactly one point appended to its route and every other session is unchanged |
| Server.PresenceServer.NavigationEnd | backend/server.js:104-121 | exactly the named session is removed and handed back if present; otherwise nothing changes |
| Server.PresenceServer.ActiveSessions | backend/server.js:134-144 | the count is the number of sessions and there is one summary per session, oldest first |
| Server.PresenceServer.Disconnect | backend/server.js:147-160 | the user is forgotten and exactly the socket's sessions are deleted, the rest kept in order |
| Server.PresenceServer.DeleteIfOwned | backend/server.js:152-154 | the entry is deleted exactly when the socket owns it |
| Server.PresenceServer.DeleteSessionsOf | backend/server.js:151-155 | the walk leaves exactly the sessions not owned by the socket, in their old order |

## Left out

- Rendering, styles, modals, the SVG overlay and layout callbacks are not modelled. They are UI only.
- Sensor subscription plumbing, update intervals and the empty gyroscope listener are not modelled. The listeners are methods called with a sample and the time.
- The accelerometer listener's stale closure is not modelled. React re-subscribes only on `isPaused` and `hasArrived`, so the listener may read an old `useManualSteps`. The model reads the current value.
- The unmount flag `isMounted` is not modelled. After unmount no listener runs.
- The "No Location Data" screen for a missing record is not modelled. The model always has a record.
- `Math.sqrt` and `Math.atan2` are not computed. Segment lengths come with the points, required only to square to the squared distances, and the heading takes the `atan2` result in degrees.
- Floating-point rounding is not modelled. Arithmetic is on exact reals.
- `ProgressPercentage`: requires `maxSteps > 0`. With `maxSteps` 0 the code shows `Infinity` or `NaN`, which reals cannot express.
- `ParseNumber` covers the decimal forms: an optional sign, digits with an optional point, and surrounding whitespace. Exponents, hexadecimal, `Infinity` and other `Number` forms read as NaN here.
- `ParsePoint`, `ParsePathPoints`: a piece with no comma or an unreadable field gives no point, and then the whole path is `None`. In the code such a point gets a `NaN` or `undefined` coordinate, and the segment lengths that touch it are `NaN`. Every segment from that point on is then unreachable, so once the walk passes the last good segment the position jumps to `targetCoord`. The drawn path reads the raw string and is unaffected.
- `ToLower`: lowers only ASCII letters. The search boxes and the chat lower free user text. A query with non-ASCII letters is therefore not lowered as JavaScript lowers it. It can match a title in the app but not in the model. For example, "bloc\u212A" (Kelvin sign) lowers to "block" in JavaScript.
- Speech recognition (the dashboard microphone), the web-only alert and the full-campus map toggle are not modelled.
- The dashboard's direct "Scan to Start" and profile buttons are not modelled. They only call `onNavigate`.
- `SBU_DATA` and `PERSONNEL_DB` (universityData.js) are not part of this model. The chat takes them as parameters.
- `HandleBarCodeScanned`: uses the corrected `LookupLocation` rather than the bracket lookup as written. For an inherited name such as "constructor", the code hands `Object` to `onScanSuccess` and raises no alert. The model raises the alert and hands nothing on. The code as written is captured by `LookupAsWritten` and `PrototypeKeyAccepted`.
- `HandleSend`: stamps the two messages `now` and `now + 1`. The code reads the clock twice, so the second stamp may be later.
- Socket emits and broadcasts are not modelled, and neither are the `search:query` and `error` handlers: they change no table.
- Timestamps, `lastUpdate` and durations are not modelled. They only feed the emitted messages.
- The camera permission request and screen focus of the scanner are not modelled.
- The backend controllers, models, routes, `services/api.js`, the login screen and `App.js` are not part of this model.

## Findings

| source | as written | input that shows it | evidently intended | confidence | as-written member | corrected member |
|---|---|---|---|---|---|---|
| screens/MapScreen.js:107-127 | the listener's parameter `data` is the sensor sample and hides the destination record, so `newSteps >= data.maxSteps` compares with `undefined` and is always false | destination with `maxSteps` 1, sample (0, 0, 3) more than 300 ms after subscription: one step is counted, but arrival is not marked and nothing is announced until the arrival effect runs on the next render | a step that reaches `maxSteps` arrives in the listener, as the manual button does | not executed | Navigation.SensorStepLeavesArrivalPending | Navigation.NavigationSession.OnAccelerometerArriving |
| screens/QRScanner.js:56-58 | `LOCATION_DATA[data]` on a plain object also finds inherited members, and a truthy one passes the check | a QR code reading `constructor` (or `toString`, `valueOf`, ...) is accepted and the `Object` function is handed to `onScanSuccess` as a location | only the table's own codes are accepted (`Object.hasOwn` or a `Map`) | not executed | QRScanner.PrototypeKeyAccepted | QRScanner.LookupLocation |

=== FILE: ai_assistant.dfy ===
/**
 * The campus directory chat (screens/AiAssistant.js). A question is
 * lowercased and trimmed, a few abbreviations are spelled out, and the answer
 * is the first person, else the first place, matching the expanded text; a
 * greeting or a fallback message answers everything else. Sending appends the
 * question and the answer to the chat history.
 *
 * The personnel directory and the place table are parameters here; their
 * contents are not part of this model.
 */
module AiAssistant {
  import opened Wrappers
  import opened Seqs
  import opened Text

  /** A directory entry of `PERSONNEL_DB`. */
  datatype Person = Person(name: string, role: string, block: string, floor: string, room: string)

  /** The fields of a `SBU_DATA` place record that the matcher reads. */
  datatype Place = Place(id: string, title: string, block: string, floor: string)

  /** The `type` of an answer: a person card, a place with a map button, or plain text. */
  datatype UiType = PersonnelType | MapType | NoType

  /** An answer: its text, the place it points at (if any), and its type. */
  datatype Response = Response(text: string, data: Option<Place>, uiType: UiType)

  datatype Sender = User | Ai

  /** A chat bubble. */
  datatype ChatMessage = ChatMessage(id: int, sender: Sender, text: string, data: Option<Place>, uiType: UiType)

  const WelcomeText :=
    "Welcome to RaahVia Assistant. Please enter a personnel name, department, or campus location to begin."
  const GreetingText := "System Online. Ready for directory or navigation queries."
  const FallbackText :=
    "Search query not recognized. Please specify a Block name or Personnel title (e.g., 'Pharmacy' or 'VC')."

  /** The history the chat opens with: the welcome message alone. */
  const InitialHistory := [ChatMessage(1, Ai, WelcomeText, None, NoType)]

  /** `synonymMap`, in the key order `Object.keys` walks it. */
  const Synonyms: seq<(string, string)> := [
    ("vc", "vice chancellor"),
    ("dg", "director general"),
    ("registrar", "prof. s. b. dandin"),
    ("hod", "head of department"),
    ("admin", "administrative block")]

  /** `userText.toLowerCase().trim()`: no ASCII capital is left and neither end is whitespace. */
  function Normalize(userText: string): (text: string)
    ensures forall i :: 0 <= i < |text| ==> !('A' <= text[i] <= 'Z')
    ensures text != [] ==> !IsWhitespace(text[0]) && !IsWhitespace(text[|text| - 1])
    ensures |text| <= |userText|
  {
    Trim(ToLower(userText))
  }

  /** Normalizing is idempotent: a normalized question is already lowercase and trimmed. */
  lemma NormalizeIdempotent(userText: string)
    ensures Normalize(Normalize(userText)) == Normalize(userText)
  {
    var lowered := ToLower(userText);
    var t := Trim(lowered);
    var k := LeadingWhitespace(lowered);
    forall i | 0 <= i < |t|
      ensures LowerChar(t[i]) == t[i]
    {
      assert t[i] == lowered[k + i];
    }
    ToLowerOfLowered(t);
    TrimIdempotent(lowered);
  }

  /** A key is expanded when the whole text is the key, or the text has the key after or before a space. */
  predicate Triggers(text: string, key: string) {
    text == key || Includes(text, " " + key) || Includes(text, key + " ")
  }

  /**
   * The text after the first `n` keys were considered: each triggering key
   * (checked against the normalized text) has its first occurrence in the text
   * expanded so far replaced.
   */
  function ExpandUpTo(text: string, n: nat): (r: string)
    requires n <= |Synonyms|
  {
    if n == 0 then text
    else
      var prev := ExpandUpTo(text, n - 1);
      var (key, value) := Synonyms[n - 1];
      if Triggers(text, key) then ReplaceFirst(prev, key, value) else prev
  }

  /** The whole expansion: text in which no synonym key triggers comes through unchanged. */
  function Expand(text: string): (expanded: string)
    ensures (forall i :: 0 <= i < |Synonyms| ==> !Triggers(text, Synonyms[i].0)) ==> expanded == text
  {
    ExpandWithoutTrigger(text);
    ExpandUpTo(text, |Synonyms|)
  }

  lemma ExpandWithoutTrigger(text: string)
    ensures (forall i :: 0 <= i < |Synonyms| ==> !Triggers(text, Synonyms[i].0)) ==> ExpandUpTo(text, |Synonyms|) == text
  {
    if forall i :: 0 <= i < |Synonyms| ==> !Triggers(text, Synonyms[i].0) {
      ExpandUntriggered(text, |Synonyms|);
    }
  }

  /** A key that does not trigger leaves the text as the earlier keys left it. */
  lemma ExpandStepUntriggered(text: string, n: nat)
    requires n < |Synonyms| && !Triggers(text, Synonyms[n].0)
    ensures ExpandUpTo(text, n + 1) == ExpandUpTo(text, n)
  {
  }

  /** A key that triggers replaces only the first place it occurs in the text expanded so far. */
  lemma ExpandStepTriggered(text: string, n: nat)
    requires n < |Synonyms| && Triggers(text, Synonyms[n].0)
    ensures !Includes(ExpandUpTo(text, n), Synonyms[n].0) ==> ExpandUpTo(text, n + 1) == ExpandUpTo(text, n)
    ensures Includes(ExpandUpTo(text, n), Synonyms[n].0) ==> exists k: nat ::
      OccursAt(ExpandUpTo(text, n), Synonyms[n].0, k) &&
      (forall j :: 0 <= j < k ==> !OccursAt(ExpandUpTo(text, n), Synonyms[n].0, j)) &&
      ExpandUpTo(text, n + 1) == ExpandUpTo(text, n)[..k] + Synonyms[n].1 + ExpandUpTo(text, n)[k + |Synonyms[n].0|..]
  {
  }

  /** Text in which no key triggers comes through the expansion unchanged. */
  lemma {:induction false} ExpandUntriggered(text: string, n: nat)
    requires n <= |Synonyms|
    requires forall i :: 0 <= i < n ==> !Triggers(text, Synonyms[i].0)
    ensures ExpandUpTo(text, n) == text
  {
    if n > 0 {
      ExpandUntriggered(text, n - 1);
    }
  }

  /** The expansion as the screen computes it: a walk over the keys, rewriting `expandedText` in place. */
  method ExpandSynonyms(text: string) returns (expandedText: string)
    ensures expandedText == Expand(text)
  {
    expandedText := text;
    for i := 0 to |Synonyms|
      invariant expandedText == ExpandUpTo(text, i)
    {
      var (key, value) := Synonyms[i];
      if text == key || Includes(text, " " + key) || Includes(text, key + " ") {
        expandedText := ReplaceFirst(expandedText, key, value);
      }
    }
  }

  /** The personnel search: the expanded text and the lowercased name or role contain one another. */
  predicate PersonMatches(expandedText: string, p: Person) {
    Includes(expandedText, ToLower(p.name)) || Includes(expandedText, ToLower(p.role)) ||
    Includes(ToLower(p.name), expandedText) || Includes(ToLower(p.role), expandedText)
  }

  /** The place search: the expanded text contains the lowercased title or block, or the title contains it. */
  predicate PlaceMatches(expandedText: string, l: Place) {
    Includes(expandedText, ToLower(l.title)) || Includes(expandedText, ToLower(l.block)) ||
    Includes(ToLower(l.title), expandedText)
  }

  /** `/hi|hello|hey|start/` matched against the normalized text. */
  predicate IsGreeting(text: string) {
    Includes(text, "hi") || Includes(text, "hello") || Includes(text, "hey") || Includes(text, "start")
  }

  function PersonnelAnswer(p: Person): Response {
    Response("Record Found: " + p.name + "\nDesignation: " + p.role + "\nLocation: " + p.block +
             ", Floor " + p.floor + ", Room " + p.room + ".", None, PersonnelType)
  }

  function PlaceAnswer(l: Place): Response {
    Response("Location Found: " + l.title + "\nArea: " + l.block + " Block\nLevel: " + l.floor + ".", Some(l), MapType)
  }

  /**
   * `getSmartResponse`: personnel first, then places, then a greeting, then
   * the fallback. A map answer always carries one of the listed places.
   */
  function SmartResponse(userText: string, personnel: seq<Person>, places: seq<Place>): (r: Response)
    ensures r.data.Some? ==> r.data.value in places
  {
    var text := Normalize(userText);
    Answer(text, Expand(text), personnel, places)
  }

  /** The search once the question is normalized (`text`) and expanded (`expandedText`). */
  function Answer(text: string, expandedText: string, personnel: seq<Person>, places: seq<Place>): Response {
    match FindFirst(personnel, p => PersonMatches(expandedText, p))
    case Some(i) => PersonnelAnswer(personnel[i])
    case None =>
      match FindFirst(places, l => PlaceMatches(expandedText, l))
      case Some(j) => PlaceAnswer(places[j])
      case None =>
        if IsGreeting(text) then Response(GreetingText, None, NoType)
        else Response(FallbackText, None, NoType)
  }

  /** The first person the expanded text matches answers, whatever the places say. */
  lemma PersonnelFirst(userText: string, personnel: seq<Person>, places: seq<Place>, i: nat)
    requires i < |personnel| && PersonMatches(Expand(Normalize(userText)), personnel[i])
    requires forall j :: 0 <= j < i ==> !PersonMatches(Expand(Normalize(userText)), personnel[j])
    ensures SmartResponse(userText, personnel, places) == PersonnelAnswer(personnel[i])
  {
    var text := Normalize(userText);
    AnswerPersonnelFirst(text, Expand(text), personnel, places, i);
  }

  lemma AnswerPersonnelFirst(text: string, e: string, personnel: seq<Person>, places: seq<Place>, i: nat)
    requires i < |personnel| && PersonMatches(e, personnel[i])
    requires forall j :: 0 <= j < i ==> !PersonMatches(e, personnel[j])
    ensures Answer(text, e, personnel, places) == PersonnelAnswer(personnel[i])
  {
    FindFirstAt(personnel, p => PersonMatches(e, p), i);
  }

  /** With no person matching, the first place the expanded text matches answers, with a map. */
  lemma PlaceSecond(userText: string, personnel: seq<Person>, places: seq<Place>, i: nat)
    requires forall j :: 0 <= j < |personnel| ==> !PersonMatches(Expand(Normalize(userText)), personnel[j])
    requires i < |places| && PlaceMatches(Expand(Normalize(userText)), places[i])
    requires forall j :: 0 <= j < i ==> !PlaceMatches(Expand(Normalize(userText)), places[j])
    ensures SmartResponse(userText, personnel, places) == PlaceAnswer(places[i])
  {
    var text := Normalize(userText);
    AnswerPlaceSecond(text, Expand(text), personnel, places, i);
  }

  lemma AnswerPlaceSecond(text: string, e: string, personnel: seq<Person>, places: seq<Place>, i: nat)
    requires forall j :: 0 <= j < |personnel| ==> !PersonMatches(e, personnel[j])
    requires i < |places| && PlaceMatches(e, places[i])
    requires forall j :: 0 <= j < i ==> !PlaceMatches(e, places[j])
    ensures Answer(text, e, personnel, places) == PlaceAnswer(places[i])
  {
    FindFirstAt(places, l => PlaceMatches(e, l), i);
  }

  /** With nothing matching, the answer is the greeting exactly when the text greets, else the fallback. */
  lemma GreetingOrFallback(userText: string, personnel: seq<Person>, places: seq<Place>)
    requires forall j :: 0 <= j < |personnel| ==> !PersonMatches(Expand(Normalize(userText)), personnel[j])
    requires forall j :: 0 <= j < |places| ==> !PlaceMatches(Expand(Normalize(userText)), places[j])
    ensures IsGreeting(Normalize(userText)) ==> SmartResponse(userText, personnel, places) == Response(GreetingText, None, NoType)
    ensures !IsGreeting(Normalize(userText)) ==> SmartResponse(userText, personnel, places) == Response(FallbackText, None, NoType)
  {
    var text := Normalize(userText);
    AnswerGreetingOrFallback(text, Expand(text), personnel, places);
  }

  lemma AnswerGreetingOrFallback(text: string, e: string, personnel: seq<Person>, places: seq<Place>)
    requires forall j :: 0 <= j < |personnel| ==> !PersonMatches(e, personnel[j])
    requires forall j :: 0 <= j < |places| ==> !PlaceMatches(e, places[j])
    ensures IsGreeting(text) ==> Answer(text, e, personnel, places) == Response(GreetingText, None, NoType)
    ensures !IsGreeting(text) ==> Answer(text, e, personnel, places) == Response(FallbackText, None, NoType)
  {
  }

  /** The answer has the type of the branch that produced it, and only a map answer carries a place. */
  lemma SmartResponseShape(userText: string, personnel: seq<Person>, places: seq<Place>)
    ensures var r := SmartResponse(userText, personnel, places);
      (r.uiType == PersonnelType <==> exists i :: 0 <= i < |personnel| && PersonMatches(Expand(Normalize(userText)), personnel[i])) &&
      (r.data.Some? <==> r.uiType == MapType) &&
      (r.data.Some? ==> r.data.value in places)
  {
    var text := Normalize(userText);
    AnswerShape(text, Expand(text), personnel, places);
  }

  lemma AnswerShape(text: string, e: string, personnel: seq<Person>, places: seq<Place>)
    ensures var r := Answer(text, e, personnel, places);
      (r.uiType == PersonnelType <==> exists i :: 0 <= i < |personnel| && PersonMatches(e, personnel[i])) &&
      (r.data.Some? <==> r.uiType == MapType) &&
      (r.data.Some? ==> r.data.value in places)
  {
    var pf := FindFirst(personnel, p => PersonMatches(e, p));
    if pf.Some? {
      assert PersonMatches(e, personnel[pf.value]);
    }
  }

  /** Case and surrounding whitespace never change the answer. */
  lemma SmartResponseNormalized(userText: string, personnel: seq<Person>, places: seq<Place>)
    ensures SmartResponse(Normalize(userText), personnel, places) == SmartResponse(userText, personnel, places)
  {
    NormalizeIdempotent(userText);
  }

  /** `getSmartResponse` as the screen runs it: expand in a loop, then search. */
  method GetSmartResponse(userText: string, personnel: seq<Person>, places: seq<Place>) returns (response: Response)
    ensures response == SmartResponse(userText, personnel, places)
  {
    var text := Normalize(userText);
    var expandedText := ExpandSynonyms(text);
    var person := FindFirst(personnel, p => PersonMatches(expandedText, p));
    if person.Some? {
      return PersonnelAnswer(personnel[person.value]);
    }
    var location := FindFirst(places, l => PlaceMatches(expandedText, l));
    if location.Some? {
      return PlaceAnswer(places[location.value]);
    }
    if IsGreeting(text) {
      return Response(GreetingText, None, NoType);
    }
    return Response(FallbackText, None, NoType);
  }

  /** The welcome message followed by question/answer pairs, user first in each pair. */
  predicate HistoryShape(h: seq<ChatMessage>) {
    |h| % 2 == 1 && h[0] == InitialHistory[0] &&
    forall i :: 1 <= i < |h| ==> (h[i].sender == User <==> i % 2 == 1)
  }

  /** Appending a question and its answer keeps that shape. */
  lemma AppendPairKeepsShape(h: seq<ChatMessage>, question: ChatMessage, answer: ChatMessage)
    requires HistoryShape(h) && question.sender == User && answer.sender == Ai
    ensures HistoryShape(h + [question, answer])
  {
    var h' := h + [question, answer];
    forall i | 1 <= i < |h'|
      ensures h'[i].sender == User <==> i % 2 == 1
    {
      if i < |h| {
        assert h'[i] == h[i];
      }
    }
  }

  /** The chat screen: the input box and the history, over a fixed directory. */
  class AssistantScreen {
    const personnel: seq<Person>
    const places: seq<Place>
    var input: string
    var chatHistory: seq<ChatMessage>

    /** The history is the welcome message followed by question/answer pairs. */
    predicate Valid()
      reads this
    {
      HistoryShape(chatHistory)
    }

    constructor(personnel: seq<Person>, places: seq<Place>)
      ensures Valid()
      ensures this.personnel == personnel && this.places == places
      ensures input == "" && chatHistory == InitialHistory
    {
      this.personnel := personnel;
      this.places := places;
      input := "";
      chatHistory := InitialHistory;
    }

    method SetInput(text: string)
      modifies this`input
      ensures input == text
    {
      input := text;
    }

    /**
     * `handleSend`: a blank input does nothing; otherwise the question (as
     * typed) and its answer are appended, stamped `now` and `now + 1`, and the
     * input is cleared.
     */
    method HandleSend(now: int)
      requires Valid()
      modifies this`input, this`chatHistory
      ensures Valid()
      ensures Trim(old(input)) == "" ==> input == old(input) && chatHistory == old(chatHistory)
      ensures Trim(old(input)) != "" ==>
        var r := SmartResponse(old(input), personnel, places);
        input == "" &&
        chatHistory == old(chatHistory) + [ChatMessage(now, User, old(input), None, NoType),
                                           ChatMessage(now + 1, Ai, r.text, r.data, r.uiType)]
    {
      if Trim(input) == "" {
        return;
      }
      var userMsg := ChatMessage(now, User, input, None, NoType);
      var response := GetSmartResponse(input, personnel, places);
      var aiMsg := ChatMessage(now + 1, Ai, response.text, response.data, response.uiType);
      AppendPairKeepsShape(chatHistory, userMsg, aiMsg);
      chatHistory := chatHistory + [userMsg, aiMsg];
      input := "";
    }
  }
}

=== FILE: dashboard.dfy ===
/**
 * The home screen (screens/Dashboard.js): a search box over the two main
 * zones, a floor chooser for the pharmacy block, and an alert that tells the
 * user which QR code to scan and then opens the scanner aimed at that code.
 */
module Dashboard {
  import opened Seqs
  import opened Text
  import QRScanner

  /** A zone listed in the search dropdown. */
  datatype Zone = Zone(id: string, title: string)

  /** The custom alert: whether it shows, what it says, and which code the scanner should look for. */
  datatype Alert = Alert(visible: bool, message: string, targetId: string)

  /** The screens the dashboard asks the app to open. */
  datatype NavRequest = ToMapScreen(item: Zone) | ToQRScanner(targetZone: string)

  /** What a press on a search result leads to. */
  datatype SearchRoute = OpenPharmacyFloors | AlertAuditorium | OpenMap

  const PharmacyBlock := Zone("pharm_gateway", "Pharmacy Block")
  const AuditoriumEntranceZone := Zone("aud_entrance", "Auditorium Entrance")

  /** `mainZones`, in display order. */
  const MainZones: seq<Zone> := [PharmacyBlock, AuditoriumEntranceZone]

  const HiddenAlert := Alert(false, "", "")

  /** The search filter: the lowercased title contains the lowercased query. */
  predicate ZoneMatches(query: string, z: Zone) {
    Includes(ToLower(z.title), ToLower(query))
  }

  /** `filteredZones`: nothing for an empty query, otherwise the matching zones in order. */
  function FilteredZones(zones: seq<Zone>, query: string): (r: seq<Zone>)
    ensures |query| == 0 ==> r == []
    ensures |query| > 0 ==> forall z :: z in r <==> z in zones && ZoneMatches(query, z)
  {
    if |query| > 0 then Filter(zones, z => ZoneMatches(query, z)) else []
  }

  /** An empty query lists nothing; otherwise a zone is listed exactly when its title matches. */
  lemma FilteredZonesExactly(zones: seq<Zone>, query: string, z: Zone)
    ensures query == "" ==> FilteredZones(zones, query) == []
    ensures query != "" ==>
      (z in FilteredZones(zones, query) <==> z in zones && exists i: nat :: OccursAt(ToLower(z.title), ToLower(query), i))
  {
    IncludesIff(ToLower(z.title), ToLower(query));
    if query != "" {
      var r := FilteredZones(zones, query);
      if z in r {
        var k :| 0 <= k < |r| && r[k] == z;
      }
      if z in zones && ZoneMatches(query, z) {
        var k :| 0 <= k < |zones| && zones[k] == z;
      }
    }
  }

  /** The filter keeps the zones' order. */
  lemma FilteredZonesInOrder(a: seq<Zone>, b: seq<Zone>, query: string)
    ensures FilteredZones(a + b, query) == FilteredZones(a, query) + FilteredZones(b, query)
  {
    if |query| > 0 {
      FilterAppend(a, b, z => ZoneMatches(query, z));
    }
  }

  /** The alert `handleStartNavigation` raises for a zone. */
  function StartNavigationAlert(zoneTitle: string, zoneId: string): (a: Alert)
    ensures a.visible && a.targetId == zoneId
    ensures a.message == "Please scan the QR code located at the " + zoneTitle + "."
  {
    Alert(true, "Please scan the QR code located at the " + zoneTitle + ".", zoneId)
  }

  /** `handleSearchSelection`'s branch: a pharmacy title first, then an auditorium id, else the map. */
  function RouteFor(item: Zone): (r: SearchRoute)
    ensures r == OpenPharmacyFloors <==> Includes(ToLower(item.title), "pharmacy")
    ensures r == AlertAuditorium <==> !Includes(ToLower(item.title), "pharmacy") && Includes(item.id, "aud")
    ensures r == OpenMap <==> !Includes(ToLower(item.title), "pharmacy") && !Includes(item.id, "aud")
  {
    if Includes(ToLower(item.title), "pharmacy") then OpenPharmacyFloors
    else if Includes(item.id, "aud") then AlertAuditorium
    else OpenMap
  }

  /** `handleZoneSelect`'s table: the floor's title and the code of its QR sticker; unknown floors give empty strings. */
  function ZoneTarget(zoneId: string): (r: (string, string))
    ensures zoneId == "pharm_g" ==> r == ("Pharmacy Ground Floor", "pharm_g_entrance")
    ensures zoneId == "pharm_1" ==> r == ("Pharmacy 1st Floor", "pharm_1_stairs")
    ensures zoneId == "pharm_2" ==> r == ("Pharmacy 2nd Floor", "pharm_2_elevator")
    ensures zoneId !in {"pharm_g", "pharm_1", "pharm_2"} ==> r == ("", "")
  {
    if zoneId == "pharm_g" then ("Pharmacy Ground Floor", "pharm_g_entrance")
    else if zoneId == "pharm_1" then ("Pharmacy 1st Floor", "pharm_1_stairs")
    else if zoneId == "pharm_2" then ("Pharmacy 2nd Floor", "pharm_2_elevator")
    else ("", "")
  }

  /** The pharmacy result opens the floor chooser: its title contains "pharmacy" once lowercased. */
  lemma PharmacyBlockOpensFloors(z: Zone)
    requires z == PharmacyBlock
    ensures RouteFor(z) == OpenPharmacyFloors
  {
    assert ToLower(z.title) == "pharmacy block";
    assert OccursAt(ToLower(z.title), "pharmacy", 0);
    IncludesIff(ToLower(z.title), "pharmacy");
  }

  /** The auditorium result raises the scan alert: no "pharmacy" in its title, "aud" in its id. */
  lemma AuditoriumZoneAlerts(z: Zone)
    requires z == AuditoriumEntranceZone
    ensures RouteFor(z) == AlertAuditorium
  {
    var t := ToLower(z.title);
    assert t == "auditorium entrance";
    forall i: nat
      ensures !OccursAt(t, "pharmacy", i)
    {
      if i + 8 <= |t| {
        assert t[i..i + 8][0] == t[i];
      }
    }
    IncludesIff(t, "pharmacy");
    assert OccursAt(z.id, "aud", 0);
    IncludesIff(z.id, "aud");
  }

  /** No main zone reaches the map branch: searching never opens the map screen directly. */
  lemma NoMainZoneOpensMap()
    ensures forall i :: 0 <= i < |MainZones| ==> RouteFor(MainZones[i]) != OpenMap
  {
    PharmacyBlockOpensFloors(PharmacyBlock);
    AuditoriumZoneAlerts(AuditoriumEntranceZone);
  }

  /**
   * The ground floor and the auditorium alerts aim the scanner at codes the
   * scanner knows; the upper pharmacy floors aim it at codes it does not.
   */
  lemma AlertTargetsAgainstScanner()
    ensures ZoneTarget("pharm_g").1 in QRScanner.LocationData
    ensures "aud_entrance" in QRScanner.LocationData
    ensures ZoneTarget("pharm_1").1 !in QRScanner.LocationData
    ensures ZoneTarget("pharm_2").1 !in QRScanner.LocationData
  {
  }

  /** The dashboard's state: the search box, the pharmacy floor chooser, the alert, and the screens asked for. */
  class DashboardScreen {
    var searchQuery: string
    var pharmacyOptionsVisible: bool
    var alert: Alert
    /** Every `onNavigate` request made, oldest first. */
    var navigations: seq<NavRequest>

    constructor()
      ensures searchQuery == "" && !pharmacyOptionsVisible && alert == HiddenAlert && navigations == []
    {
      searchQuery := "";
      pharmacyOptionsVisible := false;
      alert := HiddenAlert;
      navigations := [];
    }

    /** The dropdown's entries for the current query. */
    function Dropdown(): seq<Zone>
      reads this
    {
      FilteredZones(MainZones, searchQuery)
    }

    method SetSearchQuery(q: string)
      modifies this`searchQuery
      ensures searchQuery == q
    {
      searchQuery := q;
    }

    /** `handleStartNavigation`: show the alert naming the zone, aimed at the zone's code. */
    method HandleStartNavigation(zoneTitle: string, zoneId: string)
      modifies this`alert
      ensures alert.visible && alert.targetId == zoneId
      ensures alert.message == "Please scan the QR code located at the " + zoneTitle + "."
    {
      alert := Alert(true, "Please scan the QR code located at the " + zoneTitle + ".", zoneId);
    }

    /** `handleSearchSelection`: clear the query, then open the floors, raise the auditorium alert, or open the map. */
    method HandleSearchSelection(item: Zone)
      modifies this`searchQuery, this`pharmacyOptionsVisible, this`alert, this`navigations
      ensures searchQuery == ""
      ensures RouteFor(item) == OpenPharmacyFloors ==>
        pharmacyOptionsVisible && alert == old(alert) && navigations == old(navigations)
      ensures RouteFor(item) == AlertAuditorium ==>
        pharmacyOptionsVisible == old(pharmacyOptionsVisible) && navigations == old(navigations) &&
        alert == StartNavigationAlert("Auditorium Entrance", "aud_entrance")
      ensures RouteFor(item) == OpenMap ==>
        pharmacyOptionsVisible == old(pharmacyOptionsVisible) && alert == old(alert) &&
        navigations == old(navigations) + [ToMapScreen(item)]
    {
      searchQuery := "";
      if Includes(ToLower(item.title), "pharmacy") {
        pharmacyOptionsVisible := true;
      } else if Includes(item.id, "aud") {
        HandleStartNavigation("Auditorium Entrance", "aud_entrance");
      } else {
        navigations := navigations + [ToMapScreen(item)];
      }
    }

    /** `handleZoneSelect`: close the floor chooser and raise the alert for the chosen floor. */
    method HandleZoneSelect(zoneId: string)
      modifies this`pharmacyOptionsVisible, this`alert
      ensures !pharmacyOptionsVisible
      ensures alert == StartNavigationAlert(ZoneTarget(zoneId).0, ZoneTarget(zoneId).1)
    {
      pharmacyOptionsVisible := false;
      var zoneTitle := "";
      var qrId := "";
      if zoneId == "pharm_g" {
        zoneTitle, qrId := "Pharmacy Ground Floor", "pharm_g_entrance";
      } else if zoneId == "pharm_1" {
        zoneTitle, qrId := "Pharmacy 1st Floor", "pharm_1_stairs";
      } else if zoneId == "pharm_2" {
        zoneTitle, qrId := "Pharmacy 2nd Floor", "pharm_2_elevator";
      }
      HandleStartNavigation(zoneTitle, qrId);
    }

    method ClosePharmacyOptions()
      modifies this`pharmacyOptionsVisible
      ensures !pharmacyOptionsVisible
    {
      pharmacyOptionsVisible := false;
    }

    /** The alert's OK button: hide and clear the alert, then open the scanner if the alert named a code. */
    method DismissAlert()
      modifies this`alert, this`navigations
      ensures alert == HiddenAlert
      ensures old(alert.targetId) != "" ==> navigations == old(navigations) + [ToQRScanner(old(alert.targetId))]
      ensures old(alert.targetId) == "" ==> navigations == old(navigations)
    {
      var target := alert.targetId;
      alert := HiddenAlert;
      if target != "" {
        navigations := navigations + [ToQRScanner(target)];
      }
    }
  }
}

=== FILE: dead_reckoning.dfy ===
/**
 * The map screen's dead reckoning: the walker's position is placed on the
 * path polyline at `userSteps * (distanceInMeters / maxSteps)` along it
 * (`calculateCurrentPosition`), the progress bar shows
 * `min(userSteps / maxSteps * 100, 100)`, and the compass heading is derived
 * from the magnetometer angle.
 *
 * `Math.sqrt` is not computed: the segment lengths come with the points and
 * are only required to square to the squared distances. `Math.atan2` is not
 * computed either: the heading is derived from its result in degrees.
 */
module DeadReckoning {
  import opened Wrappers
  import opened Location

  /** What `calculateCurrentPosition` yields: a point, or NaN coordinates after dividing 0 by 0. */
  datatype Position = At(p: Point) | NonFinite

  function SquaredDistance(p: Point, q: Point): real {
    (q.x - p.x) * (q.x - p.x) + (q.y - p.y) * (q.y - p.y)
  }

  /** `lens[i]` is the Euclidean length of segment `points[i]`-`points[i + 1]`. */
  ghost predicate SegmentLengths(points: seq<Point>, lens: seq<real>) {
    && |lens| == (if |points| < 2 then 0 else |points| - 1)
    && forall i :: 0 <= i < |lens| ==>
         lens[i] >= 0.0 && lens[i] * lens[i] == SquaredDistance(points[i], points[i + 1])
  }

  /** Length of the first `k` segments together. */
  function Prefix(lens: seq<real>, k: nat): real
    requires k <= |lens|
  {
    if k == 0 then 0.0 else Prefix(lens, k - 1) + lens[k - 1]
  }

  /** How far along the path segment `j` ends. */
  function SegmentEnd(lens: seq<real>, j: nat): real
    requires j < |lens|
  {
    Prefix(lens, j + 1)
  }

  /** Index of the first segment, from `i` on, whose far end is at least `walked` along the path. */
  function FirstReachFrom(lens: seq<real>, walked: real, i: nat): (r: Option<nat>)
    requires i <= |lens|
    ensures r.Some? ==> i <= r.value < |lens| && SegmentEnd(lens, r.value) >= walked
    ensures r.Some? ==> forall j :: i <= j < r.value ==> SegmentEnd(lens, j) < walked
    ensures r.None? ==> forall j :: i <= j < |lens| ==> SegmentEnd(lens, j) < walked
    decreases |lens| - i
  {
    if i == |lens| then None
    else if SegmentEnd(lens, i) >= walked then Some(i)
    else FirstReachFrom(lens, walked, i + 1)
  }

  /** The segment the walker is on after walking `walked`: the first whose end is reached. */
  function FirstReach(lens: seq<real>, walked: real): (r: Option<nat>)
    ensures r.Some? ==> r.value < |lens| && SegmentEnd(lens, r.value) >= walked
    ensures r.Some? ==> forall j :: 0 <= j < r.value ==> SegmentEnd(lens, j) < walked
    ensures r.None? ==> forall j :: 0 <= j < |lens| ==> SegmentEnd(lens, j) < walked
  {
    FirstReachFrom(lens, walked, 0)
  }

  /** The first segment whose end is reached is the one the walk is on. */
  lemma FirstReachExactly(lens: seq<real>, walked: real, i: nat)
    requires i < |lens| && SegmentEnd(lens, i) >= walked
    requires forall j :: 0 <= j < i ==> SegmentEnd(lens, j) < walked
    ensures FirstReach(lens, walked) == Some(i)
  {
  }

  /** The point `t` of the way from `p` to `q`. */
  function Lerp(p: Point, q: Point, t: real): Point {
    Point(p.x + (q.x - p.x) * t, p.y + (q.y - p.y) * t)
  }

  /** The point `along` units into a segment of length `len`; NaN for a zero-length segment. */
  function Interpolate(p: Point, q: Point, len: real, along: real): (r: Position)
    ensures r.NonFinite? <==> len == 0.0
    ensures len != 0.0 && along == 0.0 ==> r == At(p)
    ensures len != 0.0 && along == len ==> r == At(q)
  {
    if len == 0.0 then NonFinite else At(Lerp(p, q, along / len))
  }

  /** Distance walked after `steps` steps: each step is `distanceInMeters / maxSteps`. */
  function WalkedDistance(steps: nat, maxSteps: int, distanceInMeters: real): real
    requires maxSteps > 0
  {
    steps as real * (distanceInMeters / maxSteps as real)
  }

  /** The position `calculateCurrentPosition` is to return, defined segment by segment. */
  ghost function PositionAt(points: seq<Point>, lens: seq<real>, steps: nat, maxSteps: int,
                            distanceInMeters: real, endPoint: Point): (r: Position)
    requires SegmentLengths(points, lens)
    ensures r.NonFinite? ==> exists k :: 0 <= k < |lens| && lens[k] == 0.0
  {
    if |points| < 2 || steps >= maxSteps then At(endPoint)
    else
      var walked := WalkedDistance(steps, maxSteps, distanceInMeters);
      match FirstReach(lens, walked)
      case None => At(endPoint)
      case Some(k) => Interpolate(points[k], points[k + 1], lens[k], walked - Prefix(lens, k))
  }

  /** `calculateCurrentPosition`: walk the segments accumulating their lengths. */
  method CalculateCurrentPosition(points: seq<Point>, lens: seq<real>, steps: nat, maxSteps: int,
                                  distanceInMeters: real, endPoint: Point) returns (pos: Position)
    requires SegmentLengths(points, lens)
    ensures pos == PositionAt(points, lens, steps, maxSteps, distanceInMeters, endPoint)
  {
    if |points| < 2 || steps >= maxSteps {
      return At(endPoint);
    }
    var totalDistance := distanceInMeters;
    var distancePerStep := totalDistance / maxSteps as real;
    var currentDistance := steps as real * distancePerStep;
    assert currentDistance == WalkedDistance(steps, maxSteps, distanceInMeters);
    var accumulatedDistance := 0.0;
    for i := 0 to |points| - 1
      invariant accumulatedDistance == Prefix(lens, i)
      invariant forall j :: 0 <= j < i ==> SegmentEnd(lens, j) < currentDistance
    {
      var p1, p2 := points[i], points[i + 1];
      var segmentDistance := lens[i];
      assert accumulatedDistance + segmentDistance == SegmentEnd(lens, i);
      if accumulatedDistance + segmentDistance >= currentDistance {
        FirstReachExactly(lens, currentDistance, i);
        if segmentDistance == 0.0 {
          return NonFinite;
        }
        var ratio := (currentDistance - accumulatedDistance) / segmentDistance;
        return At(Lerp(p1, p2, ratio));
      }
      accumulatedDistance := accumulatedDistance + segmentDistance;
    }
    return At(endPoint);
  }

  /** With non-negative segment lengths, the accumulated length never decreases. */
  lemma {:induction false} PrefixMonotone(lens: seq<real>, j: nat, k: nat)
    requires j <= k <= |lens|
    requires forall i :: 0 <= i < |lens| ==> lens[i] >= 0.0
    ensures Prefix(lens, j) <= Prefix(lens, k)
    decreases k - j
  {
    if j < k {
      PrefixMonotone(lens, j, k - 1);
    }
  }

  /** No segment is reached exactly when the walked distance exceeds the whole path. */
  lemma ReachIffWithinPath(lens: seq<real>, walked: real)
    requires |lens| > 0
    requires forall i :: 0 <= i < |lens| ==> lens[i] >= 0.0
    ensures FirstReach(lens, walked).None? <==> walked > Prefix(lens, |lens|)
  {
    assert SegmentEnd(lens, |lens| - 1) == Prefix(lens, |lens|);
    if walked > Prefix(lens, |lens|) {
      forall j | 0 <= j < |lens| ensures SegmentEnd(lens, j) < walked {
        PrefixMonotone(lens, j + 1, |lens|);
      }
    }
  }

  /**
   * The end point is returned with fewer than two points, once the step count
   * reaches `maxSteps`, and when the walked distance overshoots the summed
   * segment lengths.
   */
  lemma EndPointReturned(points: seq<Point>, lens: seq<real>, steps: nat, maxSteps: int,
                         distanceInMeters: real, endPoint: Point)
    requires SegmentLengths(points, lens)
    requires |points| < 2 || steps >= maxSteps ||
             WalkedDistance(steps, maxSteps, distanceInMeters) > Prefix(lens, |lens|)
    ensures PositionAt(points, lens, steps, maxSteps, distanceInMeters, endPoint) == At(endPoint)
  {
    if |points| >= 2 && steps < maxSteps {
      ReachIffWithinPath(lens, WalkedDistance(steps, maxSteps, distanceInMeters));
    }
  }

  /**
   * Within the path, the position lies on the reached segment `k`, a fraction
   * `t` in [0, 1] of the way along it: every earlier segment ends before the
   * walked distance, segment `k` ends at or after it.
   */
  lemma OnReachedSegment(points: seq<Point>, lens: seq<real>, steps: nat, maxSteps: int,
                         distanceInMeters: real, endPoint: Point)
    requires SegmentLengths(points, lens)
    requires |points| >= 2 && steps < maxSteps && distanceInMeters >= 0.0
    requires FirstReach(lens, WalkedDistance(steps, maxSteps, distanceInMeters)).Some?
    requires lens[FirstReach(lens, WalkedDistance(steps, maxSteps, distanceInMeters)).value] > 0.0
    ensures var walked := WalkedDistance(steps, maxSteps, distanceInMeters);
            var k := FirstReach(lens, walked).value;
            var t := (walked - Prefix(lens, k)) / lens[k];
            && Prefix(lens, k) <= walked <= Prefix(lens, k + 1)
            && 0.0 <= t <= 1.0
            && PositionAt(points, lens, steps, maxSteps, distanceInMeters, endPoint)
               == At(Lerp(points[k], points[k + 1], t))
  {
    var walked := WalkedDistance(steps, maxSteps, distanceInMeters);
    var k := FirstReach(lens, walked).value;
    assert walked >= 0.0 by {
      assert distanceInMeters / maxSteps as real >= 0.0;
    }
    if k > 0 {
      assert SegmentEnd(lens, k - 1) < walked;
    }
    assert SegmentEnd(lens, k) == Prefix(lens, k) + lens[k];
    UnitFraction(walked - Prefix(lens, k), lens[k]);
  }

  lemma UnitFraction(a: real, b: real)
    requires 0.0 <= a <= b && b > 0.0
    ensures 0.0 <= a / b <= 1.0
  {
  }

  /** Before the first step the walker is at the first path point (when the first segment has length). */
  lemma ZeroStepsAtFirstPoint(points: seq<Point>, lens: seq<real>, maxSteps: int,
                              distanceInMeters: real, endPoint: Point)
    requires SegmentLengths(points, lens)
    requires |points| >= 2 && maxSteps > 0 && lens[0] > 0.0
    ensures PositionAt(points, lens, 0, maxSteps, distanceInMeters, endPoint) == At(points[0])
  {
    assert WalkedDistance(0, maxSteps, distanceInMeters) == 0.0;
    assert Prefix(lens, 0) == 0.0;
    assert SegmentEnd(lens, 0) == lens[0];
    assert FirstReach(lens, 0.0) == Some(0);
    assert Lerp(points[0], points[1], 0.0 / lens[0]) == points[0];
  }

  /** A longer walk never puts the walker on an earlier segment. */
  lemma ReachedSegmentMonotone(lens: seq<real>, w1: real, w2: real)
    requires w1 <= w2
    requires FirstReach(lens, w2).Some?
    ensures FirstReach(lens, w1).Some? && FirstReach(lens, w1).value <= FirstReach(lens, w2).value
  {
  }

  /** The progress bar: `Math.min((userSteps / maxSteps) * 100, 100)`. */
  function ProgressPercentage(steps: nat, maxSteps: int): (r: real)
    requires maxSteps > 0
    ensures 0.0 <= r <= 100.0
    ensures r == 100.0 <==> steps >= maxSteps
    ensures steps < maxSteps ==> r * maxSteps as real == steps as real * 100.0
  {
    var ratio := (steps as real / maxSteps as real) * 100.0;
    if ratio < 100.0 then ratio else 100.0
  }

  /** More steps never show less progress. */
  lemma ProgressMonotone(s1: nat, s2: nat, maxSteps: int)
    requires maxSteps > 0 && s1 <= s2
    ensures ProgressPercentage(s1, maxSteps) <= ProgressPercentage(s2, maxSteps)
  {
    var m := maxSteps as real;
    assert s1 as real / m <= s2 as real / m;
  }

  /** JavaScript's `%` on numbers: the remainder takes the sign of the dividend. */
  function JsRemainder(a: real, m: real): real
    requires m > 0.0
  {
    var q := a / m;
    var truncated := if q >= 0.0 then q.Floor else -((-q).Floor);
    a - m * truncated as real
  }

  /** The portrait heading from the magnetometer angle `atan2(y, x)` in degrees. */
  function HeadingFromAngle(degrees: real): (r: real)
    ensures -180.0 <= degrees <= 180.0 ==> 0.0 <= r < 360.0
    ensures IsWholeTurns(r - (degrees - 90.0))
  {
    var angle := if degrees < 0.0 then degrees + 360.0 else degrees;
    var r := JsRemainder(angle + 360.0 - 90.0, 360.0);
    HeadingFacts(degrees, angle, r);
    r
  }

  /** `a` is a whole number of turns: the bearing is unchanged by adding it. */
  ghost predicate IsWholeTurns(a: real) {
    (a / 360.0).Floor as real == a / 360.0
  }

  lemma HeadingFacts(degrees: real, angle: real, r: real)
    requires angle == if degrees < 0.0 then degrees + 360.0 else degrees
    requires r == JsRemainder(angle + 360.0 - 90.0, 360.0)
    ensures -180.0 <= degrees <= 180.0 ==> 0.0 <= r < 360.0
    ensures IsWholeTurns(r - (degrees - 90.0))
  {
    var a := angle + 270.0;
    var q := a / 360.0;
    var t: int := if q >= 0.0 then q.Floor else -((-q).Floor);
    assert r == a - 360.0 * t as real;
    HeadingWholeTurns(degrees, angle, t, r);
    if -180.0 <= degrees <= 180.0 {
      HeadingInRange(a, t, r);
    }
  }

  /** The remainder differs from the raw bearing by whole turns, whatever the quotient. */
  lemma HeadingWholeTurns(degrees: real, angle: real, t: int, r: real)
    requires angle == if degrees < 0.0 then degrees + 360.0 else degrees
    requires r == angle + 270.0 - 360.0 * t as real
    ensures IsWholeTurns(r - (degrees - 90.0))
  {
    var n: int := (if degrees < 0.0 then 1 else 0) + 1 - t;
    assert r - (degrees - 90.0) == 360.0 * n as real;
    WholeTurns(n);
  }

  lemma WholeTurns(n: int)
    ensures IsWholeTurns(360.0 * n as real)
  {
    assert 360.0 * n as real / 360.0 == n as real;
  }

  /** For a non-negative dividend the truncated remainder lies in [0, 360). */
  lemma HeadingInRange(a: real, t: int, r: real)
    requires 270.0 <= a <= 630.0
    requires t == (a / 360.0).Floor
    requires r == a - 360.0 * t as real
    ensures 0.0 <= r < 360.0
  {
    assert t as real <= a / 360.0 < t as real + 1.0;
  }
}

=== FILE: floor_selection.dfy ===
/**
 * The destination chooser of the auditorium (screens/FloorSelection.js): a
 * constant table of three destinations, a title filter driven by the search
 * box, a chooser for the two Green Room sides, and the selection handed to
 * the navigation screen.
 */
module FloorSelection {
  import opened Wrappers
  import opened Seqs
  import opened Text
  import opened Location
  import opened PathParsing

  const Stage := Destination(
    "aud_stage", "Auditorium Stage", "Auditorium", "Ground", 42, 32.0, 171,
    Point(50.0, 3.2), Point(50.0, 95.0), "50,95 50,3.2",
    "Origin Locked. Walk 32 meters straight to reach the stage.",
    "stage", "#FFB6C1", false, [])

  const LeftGreenRoom := BranchOption("aud_green_left", "Left Green Room", "50,95 50,60 20,60 20,40", Point(20.0, 40.0))

  const RightGreenRoom := BranchOption("aud_green_right", "Right Green Room", "50,95 50,60 80,60 80,40", Point(80.0, 40.0))

  const GreenRoom := Destination(
    "aud_green_room", "Green Room", "Auditorium", "Ground", 16, 12.2, 81,
    Point(40.0, 40.0), Point(50.0, 95.0), "50,95 50,60 40,60 40,40",
    "Walk 4 steps forward then turn left for the Green Room.",
    "door", "#98FB98", true, [LeftGreenRoom, RightGreenRoom])

  const EmergencyExit := Destination(
    "aud_emergency_exit", "Emergency Exit", "Auditorium", "Ground", 20, 15.2, 251,
    Point(80.0, 20.0), Point(50.0, 95.0), "50,95 50,70 80,70 80,20",
    "Emergency exit located on the right wall, 15 meters ahead.",
    "exit-run", "#ADD8E6", false, [])

  /** `AUDITORIUM_DATA`, in display order. */
  const AuditoriumData: seq<Destination> := [Stage, GreenRoom, EmergencyExit]

  const DefaultStartPoint := "aud_entrance"
  const DefaultArea := "Auditorium Indoor Navigation"

  /** What `onSelect` receives: the chosen record plus where the walk starts and the area name. */
  datatype Selection = Selection(destination: Destination, startPoint: string, area: string)

  /** JavaScript's `v || fallback` on an optional string: a missing or empty value gives the fallback. */
  function OrDefault(v: Option<string>, fallback: string): (r: string)
    ensures v.Some? && v.value != "" ==> r == v.value
    ensures v.None? || v.value == "" ==> r == fallback
  {
    if v.Some? && v.value != "" then v.value else fallback
  }

  /** `s?.includes(needle)`: false when the value is missing. */
  predicate OptIncludes(s: Option<string>, needle: string) {
    s.Some? && Includes(s.value, needle)
  }

  /** `s?.includes(needle)` holds exactly when the value is present and the needle occurs in it. */
  lemma OptIncludesIff(s: Option<string>, needle: string)
    ensures OptIncludes(s, needle) <==> s.Some? && exists i: nat :: OccursAt(s.value, needle, i)
  {
    if s.Some? {
      IncludesIff(s.value, needle);
    }
  }

  /** `isAuditoriumEntrance`: the scanned code or the scanned location names the auditorium entrance. */
  predicate IsAuditoriumEntrance(qrData: Option<string>, scannedLocation: Option<string>): (shown: bool)
    ensures shown <==>
      (qrData.Some? && exists i: nat :: OccursAt(qrData.value, "Auditorium Entrance", i)) ||
      (qrData.Some? && exists i: nat :: OccursAt(qrData.value, "aud_entrance", i)) ||
      (scannedLocation.Some? && exists i: nat :: OccursAt(scannedLocation.value, "aud_entrance", i))
  {
    OptIncludesIff(qrData, "Auditorium Entrance");
    OptIncludesIff(qrData, "aud_entrance");
    OptIncludesIff(scannedLocation, "aud_entrance");
    OptIncludes(qrData, "Auditorium Entrance") || OptIncludes(qrData, "aud_entrance") ||
    OptIncludes(scannedLocation, "aud_entrance")
  }

  /**
   * `{ ...destination, ...option }`: the merge takes the four branch fields
   * from the option and every other field from the base; putting the base's
   * four fields back gives the base.
   */
  function MergeOption(d: Destination, o: BranchOption): (m: Destination)
    ensures m.id == o.id && m.title == o.title && m.pathPoints == o.pathPoints && m.targetCoord == o.targetCoord
    ensures m.block == d.block && m.floor == d.floor && m.maxSteps == d.maxSteps &&
            m.distanceInMeters == d.distanceInMeters && m.angle == d.angle && m.startCoord == d.startCoord &&
            m.voiceGuidance == d.voiceGuidance && m.icon == d.icon && m.color == d.color &&
            m.hasOptions == d.hasOptions && m.options == d.options
    ensures m.(id := d.id, title := d.title, pathPoints := d.pathPoints, targetCoord := d.targetCoord) == d
  {
    d.(id := o.id, title := o.title, pathPoints := o.pathPoints, targetCoord := o.targetCoord)
  }

  /** The record `handleDestinationSelect` settles on: the base itself, or the base merged with the option. */
  function ChooseDestination(d: Destination, option: Option<BranchOption>): Destination {
    match option
    case None => d
    case Some(o) => MergeOption(d, o)
  }

  /** Merging the same option again changes nothing, and a later option wins over an earlier one. */
  lemma MergeOptionLastWins(d: Destination, o1: BranchOption, o2: BranchOption)
    ensures MergeOption(MergeOption(d, o1), o2) == MergeOption(d, o2)
    ensures MergeOption(MergeOption(d, o1), o1) == MergeOption(d, o1)
  {
  }

  /** An option whose path runs from the base's start to its own target yields a record whose path does too. */
  lemma MergeKeepsPathConsistent(d: Destination, o: BranchOption)
    requires PathRunsFromTo(o.pathPoints, d.startCoord, o.targetCoord)
    ensures var m := MergeOption(d, o); PathRunsFromTo(m.pathPoints, m.startCoord, m.targetCoord)
  {
  }

  /** The payload `onSelect` receives for a choice. */
  function SelectionFor(d: Destination, option: Option<BranchOption>, scannedLocation: Option<string>, area: Option<string>): (s: Selection)
    ensures s.destination == ChooseDestination(d, option)
    ensures scannedLocation.Some? && scannedLocation.value != "" ==> s.startPoint == scannedLocation.value
    ensures scannedLocation.None? || scannedLocation.value == "" ==> s.startPoint == "aud_entrance"
    ensures area.Some? && area.value != "" ==> s.area == area.value
    ensures area.None? || area.value == "" ==> s.area == "Auditorium Indoor Navigation"
  {
    Selection(ChooseDestination(d, option), OrDefault(scannedLocation, DefaultStartPoint), OrDefault(area, DefaultArea))
  }

  /** The search filter: the lowercased title contains the lowercased query. */
  predicate TitleMatches(query: string, d: Destination) {
    Includes(ToLower(d.title), ToLower(query))
  }

  /** `filteredDestinations`: the records whose title matches the query, and only those. */
  function FilteredDestinations(data: seq<Destination>, query: string): (r: seq<Destination>)
    ensures forall d :: d in r <==> d in data && TitleMatches(query, d)
  {
    Filter(data, d => TitleMatches(query, d))
  }

  /** Every string includes the empty string. */
  lemma IncludesEmpty(s: string)
    ensures Includes(s, "")
  {
    assert OccursAt(s, "", 0);
    IncludesIff(s, "");
  }

  /** An entry is listed exactly when its lowercased title contains the lowercased query. */
  lemma FilteredExactly(data: seq<Destination>, query: string, d: Destination)
    ensures d in FilteredDestinations(data, query) <==> d in data && exists i: nat :: OccursAt(ToLower(d.title), ToLower(query), i)
  {
    IncludesIff(ToLower(d.title), ToLower(query));
    var r := FilteredDestinations(data, query);
    if d in r {
      var k :| 0 <= k < |r| && r[k] == d;
    }
    if d in data && TitleMatches(query, d) {
      var k :| 0 <= k < |data| && data[k] == d;
    }
  }

  /** The filter keeps the table's order: filtering a split table filters each part in turn. */
  lemma FilteredInOrder(a: seq<Destination>, b: seq<Destination>, query: string)
    ensures FilteredDestinations(a + b, query) == FilteredDestinations(a, query) + FilteredDestinations(b, query)
  {
    FilterAppend(a, b, d => TitleMatches(query, d));
  }

  /** An empty search shows the whole table. */
  lemma EmptyQueryKeepsAll(data: seq<Destination>)
    ensures FilteredDestinations(data, "") == data
  {
    forall i | 0 <= i < |data|
      ensures TitleMatches("", data[i])
    {
      IncludesEmpty(ToLower(data[i].title));
    }
    FilterAll(data, d => TitleMatches("", d));
  }

  predicate IsGreenRoom(d: Destination) {
    d.id == "aud_green_room"
  }

  /** `AUDITORIUM_DATA.find(d => d.id === 'aud_green_room')` finds the Green Room. */
  lemma GreenRoomFound()
    ensures FindFirst(AuditoriumData, IsGreenRoom) == Some(1)
    ensures AuditoriumData[1] == GreenRoom
  {
    assert !IsGreenRoom(AuditoriumData[0]) && IsGreenRoom(AuditoriumData[1]);
  }

  /** A record's path starts at its start and ends at its target, and so does the path of each of its sides. */
  ghost predicate RecordConsistent(d: Destination) {
    RecordPathConsistent(d) &&
    forall j :: 0 <= j < |d.options| ==> PathRunsFromTo(d.options[j].pathPoints, d.startCoord, d.options[j].targetCoord)
  }

  /** Every record of the table, and each Green Room side, walks from the record's start to its target. */
  lemma AuditoriumPathsConsistent()
    ensures forall i :: 0 <= i < |AuditoriumData| ==> RecordConsistent(AuditoriumData[i])
  {
    forall i | 0 <= i < |AuditoriumData|
      ensures RecordConsistent(AuditoriumData[i])
    {
      var d := AuditoriumData[i];
      if i == 0 {
        StageConsistent(d);
      } else if i == 1 {
        GreenRoomConsistent(d);
      } else {
        EmergencyExitConsistent(d);
      }
    }
  }

  /** Only the record that offers sides lists any, and the ids are distinct. */
  lemma AuditoriumRecordsWellFormed()
    ensures forall i :: 0 <= i < |AuditoriumData| ==> (AuditoriumData[i].hasOptions <==> AuditoriumData[i].options != [])
    ensures forall i, j :: 0 <= i < j < |AuditoriumData| ==> AuditoriumData[i].id != AuditoriumData[j].id
  {
  }

  /** A record without sides is consistent when its own path is. */
  lemma NoSidesConsistent(d: Destination)
    requires RecordPathConsistent(d) && d.options == []
    ensures RecordConsistent(d)
  {
  }

  lemma StageConsistent(d: Destination)
    requires d == Stage
    ensures RecordConsistent(d)
  {
    StagePathConsistent(d);
    NoSidesConsistent(d);
  }

  lemma StagePathConsistent(d: Destination)
    requires d == Stage
    ensures RecordPathConsistent(d)
  {
    StagePath(d.pathPoints);
  }

  lemma GreenRoomConsistent(d: Destination)
    requires d == GreenRoom
    ensures RecordConsistent(d)
  {
    GreenRoomPathConsistent(d);
    var sides := d.options;
    forall j | 0 <= j < |sides|
      ensures PathRunsFromTo(sides[j].pathPoints, d.startCoord, sides[j].targetCoord)
    {
      SideConsistent(sides[j], d.startCoord, j);
    }
  }

  lemma GreenRoomPathConsistent(d: Destination)
    requires d == GreenRoom
    ensures RecordPathConsistent(d)
  {
    GreenRoomPath(d.pathPoints);
  }

  /** Both Green Room sides start at the entrance and end at their own target. */
  lemma SideConsistent(side: BranchOption, start: Point, j: nat)
    requires j < 2 && side == [LeftGreenRoom, RightGreenRoom][j] && start == Point(50.0, 95.0)
    ensures PathRunsFromTo(side.pathPoints, start, side.targetCoord)
  {
    if j == 0 {
      LeftGreenRoomPath(side.pathPoints);
    } else {
      RightGreenRoomPath(side.pathPoints);
    }
  }

  lemma EmergencyExitConsistent(d: Destination)
    requires d == EmergencyExit
    ensures RecordConsistent(d)
  {
    EmergencyExitPathConsistent(d);
    NoSidesConsistent(d);
  }

  lemma EmergencyExitPathConsistent(d: Destination)
    requires d == EmergencyExit
    ensures RecordPathConsistent(d)
  {
    EmergencyExitPath(d.pathPoints);
  }

  /** The screen's state: the chosen record, the search box, the Green Room chooser, and what was handed on. */
  class FloorSelectionScreen {
    const area: Option<string>
    const scannedLocation: Option<string>
    const qrData: Option<string>
    var selectedDestination: Option<Destination>
    var searchQuery: string
    var greenRoomModal: bool
    /** Every payload passed to `onSelect`, oldest first. */
    var selections: seq<Selection>

    constructor(area: Option<string>, scannedLocation: Option<string>, qrData: Option<string>)
      ensures this.area == area && this.scannedLocation == scannedLocation && this.qrData == qrData
      ensures selectedDestination == None && searchQuery == "" && !greenRoomModal && selections == []
    {
      this.area := area;
      this.scannedLocation := scannedLocation;
      this.qrData := qrData;
      selectedDestination := None;
      searchQuery := "";
      greenRoomModal := false;
      selections := [];
    }

    /** The cards on show for the current search. */
    function Listed(): seq<Destination>
      reads this
    {
      FilteredDestinations(AuditoriumData, searchQuery)
    }

    /** Whether the "QR Code Verified" banner shows. */
    predicate ShowsEntranceBanner() {
      IsAuditoriumEntrance(qrData, scannedLocation)
    }

    method SetSearchQuery(q: string)
      modifies this`searchQuery
      ensures searchQuery == q
    {
      searchQuery := q;
    }

    /** `handleDestinationSelect`: remember the chosen record and hand it on with its start point and area. */
    method HandleDestinationSelect(destination: Destination, option: Option<BranchOption>)
      modifies this`selectedDestination, this`selections
      ensures selectedDestination == Some(ChooseDestination(destination, option))
      ensures selections == old(selections) + [SelectionFor(destination, option, scannedLocation, area)]
    {
      var finalDestination := destination;
      if option.Some? {
        finalDestination := MergeOption(finalDestination, option.value);
      }
      selectedDestination := Some(finalDestination);
      selections := selections + [Selection(finalDestination, OrDefault(scannedLocation, DefaultStartPoint), OrDefault(area, DefaultArea))];
    }

    /** Pressing a card: a record with sides opens the chooser and selects nothing; any other is selected. */
    method PressCard(destination: Destination)
      modifies this`selectedDestination, this`selections, this`greenRoomModal
      ensures destination.hasOptions ==>
        greenRoomModal && selectedDestination == old(selectedDestination) && selections == old(selections)
      ensures !destination.hasOptions ==>
        greenRoomModal == old(greenRoomModal) && selectedDestination == Some(destination) &&
        selections == old(selections) + [SelectionFor(destination, None, scannedLocation, area)]
    {
      if destination.hasOptions {
        greenRoomModal := true;
      } else {
        HandleDestinationSelect(destination, None);
      }
    }

    /** Pressing a side in the chooser: close it and select the Green Room merged with that side. */
    method PressOption(option: BranchOption)
      modifies this`selectedDestination, this`selections, this`greenRoomModal
      ensures !greenRoomModal
      ensures selectedDestination == Some(MergeOption(GreenRoom, option))
      ensures selections == old(selections) + [SelectionFor(GreenRoom, Some(option), scannedLocation, area)]
    {
      greenRoomModal := false;
      GreenRoomFound();
      var found := FindFirst(AuditoriumData, IsGreenRoom);
      HandleDestinationSelect(AuditoriumData[found.value], Some(option));
    }

    method CloseChooser()
      modifies this`greenRoomModal
      ensures !greenRoomModal
    {
      greenRoomModal := false;
    }
  }
}

=== FILE: location.dfy ===
/**
 * The location records the screens pass around: a destination of the
 * auditorium or QR tables, with its walking path as a point-list string,
 * and the branch alternatives some destinations offer.
 */
module Location {
  /** A waypoint in the map's 0-100 coordinate space. */
  datatype Point = Point(x: real, y: real)

  /** A branch alternative of a destination (the Green Room sides): it replaces the path and target. */
  datatype BranchOption = BranchOption(id: string, title: string, pathPoints: string, targetCoord: Point)

  /**
   * A destination record. The map image is left out; fields a table does not
   * give (icon, color, options) are empty, and `hasOptions` is false.
   */
  datatype Destination = Destination(
    id: string,
    title: string,
    block: string,
    floor: string,
    maxSteps: int,
    distanceInMeters: real,
    angle: int,
    targetCoord: Point,
    startCoord: Point,
    pathPoints: string,
    voiceGuidance: string,
    icon: string,
    color: string,
    hasOptions: bool,
    options: seq<BranchOption>)
}

=== FILE: navigation_session.dfy ===
/**
 * The map screen's navigation session: the state its handlers and sensor
 * listeners update step by step. Spoken announcements are appended to a log
 * (`Speak` for `Speech.speak`, `StopSpeaking` for `Speech.stop`); the clock
 * (`Date.now()`) and the sensor samples are parameters.
 */
module Navigation {
  import opened Location
  import opened DeadReckoning

  /** Acceleration magnitude above which a sample is a step (in g). */
  const StepThreshold: real := 2.5
  /** A step is accepted only when strictly more than this many milliseconds passed since the last one. */
  const DebounceMs: int := 300

  datatype SpeechRequest = Speak(text: string) | StopSpeaking

  /** The guidance spoken when the sensors are subscribed. */
  function GuidanceText(voiceGuidance: string): string {
    if voiceGuidance == "" then "Navigation started. Start walking." else voiceGuidance
  }

  function ArrivalText(title: string): string {
    "You have arrived at " + title
  }

  /** `m` is the magnitude of the acceleration (x, y, z): the non-negative root of its squared length. */
  ghost predicate IsMagnitude(m: real, x: real, y: real, z: real) {
    m >= 0.0 && m * m == x * x + y * y + z * z
  }

  /** `Math.sqrt(x*x + y*y + z*z) > 2.5`, compared without the square root. */
  predicate IsStepSample(x: real, y: real, z: real): (step: bool)
    ensures forall m :: IsMagnitude(m, x, y, z) ==> (step <==> m > StepThreshold)
  {
    SquaredComparisonAll(x, y, z);
    x * x + y * y + z * z > StepThreshold * StepThreshold
  }

  lemma SquaredComparisonAll(x: real, y: real, z: real)
    ensures forall m :: IsMagnitude(m, x, y, z) ==>
      (m > StepThreshold <==> x * x + y * y + z * z > StepThreshold * StepThreshold)
  {
    forall m | IsMagnitude(m, x, y, z)
      ensures m > StepThreshold <==> x * x + y * y + z * z > StepThreshold * StepThreshold
    {
      SquaredComparison(m, x, y, z);
    }
  }

  /** Comparing squares decides the same as comparing the magnitude itself. */
  lemma SquaredComparison(m: real, x: real, y: real, z: real)
    requires m >= 0.0 && m * m == x * x + y * y + z * z
    ensures m > StepThreshold <==> x * x + y * y + z * z > StepThreshold * StepThreshold
  {
    var t := StepThreshold;
    if m > t {
      assert m * m > t * m >= t * t;
    } else {
      ProductNonNegative(t - m, m);
      ProductNonNegative(t - m, t);
      assert m * m <= t * m <= t * t;
    }
  }

  lemma ProductNonNegative(a: real, b: real)
    requires a >= 0.0 && b >= 0.0
    ensures a * b >= 0.0
  {
  }

  /** Any two accepted step times are more than the debounce interval apart. */
  ghost predicate Debounced(times: seq<int>) {
    forall i, j :: 0 <= i < j < |times| ==> times[j] - times[i] > DebounceMs
  }

  /** A property read in JavaScript: a number, or `undefined` for a property the object lacks. */
  datatype JsValue = Number(v: real) | Undefined

  /** A property of the accelerometer sample `{x, y, z}`: the three axes, and `undefined` for any other name. */
  function SampleField(x: real, y: real, z: real, name: string): (r: JsValue)
    ensures r.Undefined? <==> name != "x" && name != "y" && name != "z"
  {
    if name == "x" then Number(x) else if name == "y" then Number(y) else if name == "z" then Number(z)
    else Undefined
  }

  /** `n >= v`: `undefined` converts to NaN, and every comparison with NaN is false. */
  predicate AtLeast(n: int, v: JsValue) {
    v.Number? && n as real >= v.v
  }

  /** The listener's check `newSteps >= data.maxSteps` reads the sample, so it never holds. */
  lemma ShadowedArrivalCheck(x: real, y: real, z: real, newSteps: int)
    ensures !AtLeast(newSteps, SampleField(x, y, z, "maxSteps"))
  {
  }

  class NavigationSession {
    const maxSteps: int
    const title: string
    const voiceGuidance: string

    var userSteps: nat
    var hasArrived: bool
    var isNavigating: bool
    var isPaused: bool
    var useManualSteps: bool
    var heading: real
    /** The sensor listener's closure variable: time of the last accepted step or of subscription. */
    var lastStepTime: int
    var speech: seq<SpeechRequest>

    /** Times at which sensor steps were accepted, and the number of manual steps. */
    ghost var sensorStepTimes: seq<int>
    ghost var manualSteps: nat

    ghost predicate Valid()
      reads this
    {
      && userSteps == |sensorStepTimes| + manualSteps
      && Debounced(sensorStepTimes)
      && (|sensorStepTimes| > 0 ==> sensorStepTimes[|sensorStepTimes| - 1] <= lastStepTime)
      && (hasArrived ==> !isNavigating && userSteps >= maxSteps)
      && 0.0 <= heading < 360.0
    }

    /** Mounting the screen: initial state, sensors subscribed at `now`, guidance spoken. */
    constructor (data: Destination, now: int)
      ensures Valid()
      ensures maxSteps == data.maxSteps && title == data.title && voiceGuidance == data.voiceGuidance
      ensures userSteps == 0 && !hasArrived && isNavigating && !isPaused && !useManualSteps
      ensures heading == 0.0 && lastStepTime == now
      ensures speech == [Speak(GuidanceText(data.voiceGuidance))]
      ensures sensorStepTimes == [] && manualSteps == 0
    {
      maxSteps, title, voiceGuidance := data.maxSteps, data.title, data.voiceGuidance;
      userSteps, hasArrived, isNavigating, isPaused, useManualSteps := 0, false, true, false, false;
      heading := 0.0;
      lastStepTime := now;
      speech := [Speak(GuidanceText(data.voiceGuidance))];
      sensorStepTimes, manualSteps := [], 0;
    }

    /**
     * The sensor effect re-running after `isPaused` or `hasArrived` changed:
     * the old subscription's cleanup stops speech, the new one restarts the
     * debounce clock at `now` and speaks the guidance again.
     */
    method Resubscribe(now: int)
      requires Valid() && now >= lastStepTime
      modifies this
      ensures Valid()
      ensures lastStepTime == now
      ensures speech == old(speech) + [StopSpeaking, Speak(GuidanceText(voiceGuidance))]
      ensures userSteps == old(userSteps) && hasArrived == old(hasArrived) && isNavigating == old(isNavigating)
      ensures isPaused == old(isPaused) && useManualSteps == old(useManualSteps) && heading == old(heading)
      ensures sensorStepTimes == old(sensorStepTimes) && manualSteps == old(manualSteps)
    {
      speech := speech + [StopSpeaking, Speak(GuidanceText(voiceGuidance))];
      lastStepTime := now;
    }

    /** The manual button's `setUserSteps` updater: one step more, with the arrival check against the destination. */
    method AddStep()
      modifies this`userSteps, this`hasArrived, this`isNavigating, this`speech
      ensures userSteps == old(userSteps) + 1
      ensures userSteps >= maxSteps ==>
        hasArrived && !isNavigating && speech == old(speech) + [Speak(ArrivalText(title))]
      ensures userSteps < maxSteps ==>
        hasArrived == old(hasArrived) && isNavigating == old(isNavigating) && speech == old(speech)
    {
      userSteps := userSteps + 1;
      if userSteps >= maxSteps {
        hasArrived := true;
        isNavigating := false;
        speech := speech + [Speak(ArrivalText(title))];
      }
    }

    /**
     * The accelerometer listener. A sample is ignored while paused, arrived or
     * in manual mode; otherwise it counts as a step when its magnitude exceeds
     * 2.5 and strictly more than 300 ms passed since `lastStepTime`. The
     * listener's parameter is the sample, so its arrival check reads the
     * sample's `maxSteps` (see `ShadowedArrivalCheck`) and never holds: a
     * counted step only adds one, and arrival is left to `ArrivalEffect`.
     */
    method OnAccelerometer(x: real, y: real, z: real, now: int) returns (counted: bool)
      requires Valid()
      modifies this
      ensures Valid()
      ensures counted <==> !old(isPaused) && !old(hasArrived) && !old(useManualSteps) &&
                           IsStepSample(x, y, z) && now - old(lastStepTime) > DebounceMs
      ensures !counted ==> unchanged(this)
      ensures counted ==> userSteps == old(userSteps) + 1 && lastStepTime == now
      ensures counted ==> sensorStepTimes == old(sensorStepTimes) + [now] && manualSteps == old(manualSteps)
      ensures hasArrived == old(hasArrived) && isNavigating == old(isNavigating) && speech == old(speech)
      ensures isPaused == old(isPaused) && useManualSteps == old(useManualSteps) && heading == old(heading)
    {
      counted := false;
      if isPaused || hasArrived || useManualSteps {
        return;
      }
      var currentTime := now;
      if IsStepSample(x, y, z) && currentTime - lastStepTime > DebounceMs {
        lastStepTime := currentTime;
        sensorStepTimes := sensorStepTimes + [currentTime];
        var newSteps := userSteps + 1;
        ShadowedArrivalCheck(x, y, z, newSteps);
        userSteps := newSteps;
        counted := true;
      }
    }

    /**
     * The listener as evidently intended: the same gate and debounce, with the
     * arrival check made against the destination, so a step that reaches
     * `maxSteps` arrives at once.
     */
    method OnAccelerometerArriving(x: real, y: real, z: real, now: int) returns (counted: bool)
      requires Valid()
      modifies this
      ensures Valid()
      ensures counted <==> !old(isPaused) && !old(hasArrived) && !old(useManualSteps) &&
                           IsStepSample(x, y, z) && now - old(lastStepTime) > DebounceMs
      ensures !counted ==> unchanged(this)
      ensures counted ==> userSteps == old(userSteps) + 1 && lastStepTime == now
      ensures counted ==> sensorStepTimes == old(sensorStepTimes) + [now] && manualSteps == old(manualSteps)
      ensures counted && userSteps >= maxSteps ==>
        hasArrived && !isNavigating && speech == old(speech) + [Speak(ArrivalText(title))]
      ensures counted && userSteps < maxSteps ==>
        hasArrived == old(hasArrived) && isNavigating == old(isNavigating) && speech == old(speech)
      ensures isPaused == old(isPaused) && useManualSteps == old(useManualSteps) && heading == old(heading)
    {
      counted := false;
      if isPaused || hasArrived || useManualSteps {
        return;
      }
      if IsStepSample(x, y, z) && now - lastStepTime > DebounceMs {
        lastStepTime := now;
        sensorStepTimes := sensorStepTimes + [now];
        AddStep();
        counted := true;
      }
    }

    /**
     * One sensor sample followed by the render it causes: the listener counts
     * the step, the arrival effect marks arrival, and since `hasArrived`
     * changed the sensor effect re-runs. Its cleanup stops the arrival
     * announcement and the new subscription speaks the guidance again.
     */
    method SensorStepAndRender(x: real, y: real, z: real, now: int) returns (counted: bool)
      requires Valid() && now >= lastStepTime
      modifies this
      ensures Valid()
      ensures counted <==> !old(isPaused) && !old(hasArrived) && !old(useManualSteps) &&
                           IsStepSample(x, y, z) && now - old(lastStepTime) > DebounceMs
      ensures userSteps == old(userSteps) + (if counted then 1 else 0)
      ensures userSteps >= maxSteps ==> hasArrived && !isNavigating
      ensures counted && userSteps >= maxSteps ==>
        speech == old(speech) + [Speak(ArrivalText(title)), StopSpeaking, Speak(GuidanceText(voiceGuidance))]
      ensures counted && userSteps < maxSteps ==> speech == old(speech) && !hasArrived
      ensures userSteps < maxSteps ==> isNavigating == old(isNavigating) && speech == old(speech)
      ensures counted ==> sensorStepTimes == old(sensorStepTimes) + [now]
      ensures !counted ==> sensorStepTimes == old(sensorStepTimes)
      ensures manualSteps == old(manualSteps)
      ensures lastStepTime == if counted || hasArrived != old(hasArrived) then now else old(lastStepTime)
      ensures isPaused == old(isPaused) && useManualSteps == old(useManualSteps) && heading == old(heading)
    {
      var wasArrived := hasArrived;
      counted := OnAccelerometer(x, y, z, now);
      ArrivalEffect();
      if hasArrived != wasArrived {
        Resubscribe(now);
      }
    }

    /**
     * The pause button followed by the render it causes: `isPaused` changed, so
     * the sensor effect re-runs, stopping the pause announcement and speaking
     * the guidance again.
     */
    method PauseAndRender(now: int)
      requires Valid() && now >= lastStepTime
      modifies this
      ensures Valid()
      ensures isPaused == !old(isPaused) && lastStepTime == now
      ensures speech == old(speech) + [Speak(if old(isPaused) then "Navigation resumed" else "Navigation paused"),
                                       StopSpeaking, Speak(GuidanceText(voiceGuidance))]
      ensures userSteps == old(userSteps) && hasArrived == old(hasArrived) && isNavigating == old(isNavigating)
      ensures useManualSteps == old(useManualSteps) && heading == old(heading)
      ensures sensorStepTimes == old(sensorStepTimes) && manualSteps == old(manualSteps)
    {
      HandlePause();
      Resubscribe(now);
    }

    /**
     * The manual step button followed by the render it causes. A step that
     * marks arrival changes `hasArrived`, so the sensor effect re-runs and cuts
     * the arrival announcement off; a step past arrival announces it again
     * without a re-run.
     */
    method ManualStepAndRender(now: int)
      requires Valid() && now >= lastStepTime
      modifies this
      ensures Valid()
      ensures userSteps == old(userSteps) + 1
      ensures userSteps >= maxSteps ==> hasArrived && !isNavigating
      ensures userSteps >= maxSteps && !old(hasArrived) ==>
        lastStepTime == now &&
        speech == old(speech) + [Speak(ArrivalText(title)), StopSpeaking, Speak(GuidanceText(voiceGuidance))]
      ensures old(hasArrived) ==> lastStepTime == old(lastStepTime) && speech == old(speech) + [Speak(ArrivalText(title))]
      ensures userSteps < maxSteps ==> lastStepTime == old(lastStepTime) && speech == old(speech) && !hasArrived
      ensures userSteps < maxSteps ==> isNavigating == old(isNavigating)
      ensures manualSteps == old(manualSteps) + 1 && sensorStepTimes == old(sensorStepTimes)
      ensures isPaused == old(isPaused) && useManualSteps == old(useManualSteps) && heading == old(heading)
    {
      var wasArrived := hasArrived;
      HandleManualStep();
      if hasArrived != wasArrived {
        Resubscribe(now);
      }
    }

    /** The magnetometer listener: while not paused, the heading follows the angle. */
    method OnMagnetometer(angleDegrees: real)
      requires Valid()
      requires -180.0 <= angleDegrees <= 180.0
      modifies this`heading
      ensures Valid()
      ensures heading == if old(isPaused) then old(heading) else HeadingFromAngle(angleDegrees)
    {
      if isPaused {
        return;
      }
      heading := HeadingFromAngle(angleDegrees);
    }

    /** The arrival effect: fires only when the count reached `maxSteps` and arrival is not yet marked. */
    method ArrivalEffect()
      requires Valid()
      modifies this`hasArrived, this`isNavigating, this`speech
      ensures Valid()
      ensures old(userSteps >= maxSteps && !hasArrived) ==>
        hasArrived && !isNavigating && speech == old(speech) + [Speak(ArrivalText(title))]
      ensures !old(userSteps >= maxSteps && !hasArrived) ==> unchanged(this)
    {
      if userSteps >= maxSteps && !hasArrived {
        hasArrived := true;
        isNavigating := false;
        speech := speech + [Speak(ArrivalText(title))];
      }
    }

    /** The pause button: flips `isPaused` and announces the change. */
    method HandlePause()
      requires Valid()
      modifies this`isPaused, this`speech
      ensures Valid()
      ensures isPaused == !old(isPaused)
      ensures speech == old(speech) + [Speak(if old(isPaused) then "Navigation resumed" else "Navigation paused")]
    {
      isPaused := !isPaused;
      speech := speech + [Speak(if !isPaused then "Navigation resumed" else "Navigation paused")];
    }

    /** The stop button: only `isNavigating` changes; step counting is not gated by it. */
    method HandleStop()
      requires Valid()
      modifies this`isNavigating, this`speech
      ensures Valid()
      ensures !isNavigating
      ensures speech == old(speech) + [Speak("Navigation stopped")]
    {
      isNavigating := false;
      speech := speech + [Speak("Navigation stopped")];
    }

    /** The manual step button: one step, with no pause, arrival or cap guard. */
    method HandleManualStep()
      requires Valid()
      modifies this`userSteps, this`hasArrived, this`isNavigating, this`speech, this`manualSteps
      ensures Valid()
      ensures userSteps == old(userSteps) + 1 && manualSteps == old(manualSteps) + 1
      ensures userSteps >= maxSteps ==>
        hasArrived && !isNavigating && speech == old(speech) + [Speak(ArrivalText(title))]
      ensures userSteps < maxSteps ==>
        hasArrived == old(hasArrived) && isNavigating == old(isNavigating) && speech == old(speech)
    {
      manualSteps := manualSteps + 1;
      AddStep();
    }

    /** The mode button: flips `useManualSteps` and announces the new mode. */
    method ToggleStepMode()
      requires Valid()
      modifies this`useManualSteps, this`speech
      ensures Valid()
      ensures useManualSteps == !old(useManualSteps)
      ensures speech == old(speech) +
        [Speak(if old(useManualSteps) then "Switched to automatic step detection" else "Switched to manual step mode")]
    {
      useManualSteps := !useManualSteps;
      speech := speech +
        [Speak(if !useManualSteps then "Switched to automatic step detection" else "Switched to manual step mode")];
    }
  }

  /** A one-step destination, enough to show when arrival is marked. */
  const OneStepDesk := Destination("desk", "Desk", "", "", 1, 1.0, 0, Point(0.0, 0.0), Point(0.0, 0.0),
                                   "", "", "", "", false, [])

  /** With the listener as written, the step that reaches `maxSteps` leaves the session not yet arrived. */
  method SensorStepLeavesArrivalPending() returns (steps: int, maxSteps: int, arrived: bool)
    ensures steps == 1 && maxSteps == 1 && !arrived
  {
    var session := new NavigationSession(OneStepDesk, 0);
    var counted := session.OnAccelerometer(0.0, 0.0, 3.0, 400);
    steps, maxSteps, arrived := session.userSteps, session.maxSteps, session.hasArrived;
  }

  /** With the intended listener, the same step arrives at once. */
  method IntendedSensorStepArrives() returns (steps: int, maxSteps: int, arrived: bool)
    ensures steps == 1 && maxSteps == 1 && arrived
  {
    var session := new NavigationSession(OneStepDesk, 0);
    var counted := session.OnAccelerometerArriving(0.0, 0.0, 3.0, 400);
    steps, maxSteps, arrived := session.userSteps, session.maxSteps, session.hasArrived;
  }
}

=== FILE: path_parsing.dfy ===
/**
 * `parsePathPoints` of the map screen: the path string "x1,y1 x2,y2 ..." is
 * split on spaces, each piece on commas, and the first two fields are read
 * with JavaScript's `Number`. A piece with a field `Number` cannot read
 * (NaN) or without a second field makes the whole path unusable here (None).
 */
module PathParsing {
  import opened Wrappers
  import opened Text
  import opened Location

  /** What `Number(s)` yields for the decimal forms modelled here. */
  datatype Num = Finite(v: real) | NaN

  predicate IsDigit(c: char) { '0' <= c <= '9' }

  predicate AllDigits(s: string) { forall i :: 0 <= i < |s| ==> IsDigit(s[i]) }

  /** The value of a string of decimal digits, most significant first. */
  function DigitsValue(ds: string): nat
    requires AllDigits(ds)
    decreases |ds|
  {
    if ds == [] then 0 else DigitsValue(ds[..|ds| - 1]) * 10 + (ds[|ds| - 1] as int - '0' as int)
  }

  function Pow10(n: nat): (r: nat)
    ensures r >= 1
  {
    if n == 0 then 1 else 10 * Pow10(n - 1)
  }

  /** An unsigned decimal literal: digits, optionally a point and more digits, at least one digit. */
  function ParseUnsigned(s: string): (r: Num)
    ensures r.Finite? ==> r.v >= 0.0
  {
    match CharIndex(s, '.')
    case None =>
      if s != [] && AllDigits(s) then Finite(DigitsValue(s) as real) else NaN
    case Some(k) =>
      var whole, frac := s[..k], s[k + 1..];
      if AllDigits(whole) && AllDigits(frac) && |whole| + |frac| > 0
      then Finite(DigitsValue(whole) as real + DigitsValue(frac) as real / Pow10(|frac|) as real)
      else NaN
  }

  /** `Number(s)`: surrounding whitespace is ignored, the empty string reads as 0, a sign may lead. */
  function ParseNumber(s: string): (r: Num)
    ensures Trim(s) == [] ==> r == Finite(0.0)
    ensures r.Finite? && r.v < 0.0 ==> Trim(s)[0] == '-'
    ensures Trim(s) != [] && IsDigit(Trim(s)[0]) ==> r == ParseUnsigned(Trim(s))
  {
    var t := Trim(s);
    if t == [] then Finite(0.0)
    else if t[0] == '-' then (match ParseUnsigned(t[1..]) case Finite(v) => Finite(-v) case NaN => NaN)
    else if t[0] == '+' then ParseUnsigned(t[1..])
    else ParseUnsigned(t)
  }

  /** `const [x, y] = piece.split(',').map(Number)`: fields after the second are ignored. */
  function ParsePoint(piece: string): (r: Option<Point>)
    ensures ',' !in piece ==> r.None?
    ensures r.Some? ==> ParseNumber(Split(piece, ',')[0]) == Finite(r.value.x) &&
                        ParseNumber(Split(piece, ',')[1]) == Finite(r.value.y)
  {
    var fields := Split(piece, ',');
    if |fields| < 2 then None
    else
      match (ParseNumber(fields[0]), ParseNumber(fields[1]))
      case (Finite(x), Finite(y)) => Some(Point(x, y))
      case _ => None
  }

  /** Each piece read as a point; None as soon as one piece is unreadable. */
  function ParsePieces(pieces: seq<string>): (r: Option<seq<Point>>)
    ensures r.Some? ==> |r.value| == |pieces|
    ensures r.Some? ==> forall i :: 0 <= i < |pieces| ==> ParsePoint(pieces[i]) == Some(r.value[i])
    ensures r.None? <==> exists i :: 0 <= i < |pieces| && ParsePoint(pieces[i]).None?
    decreases |pieces|
  {
    if pieces == [] then Some([])
    else
      match (ParsePoint(pieces[0]), ParsePieces(pieces[1..]))
      case (Some(p), Some(ps)) => Some([p] + ps)
      case (None, _) => None
      case (_, None) => None
  }

  /** `parsePathPoints(s)`: one point per space-separated piece, in order, or None when a piece is unreadable. */
  function ParsePathPoints(s: string): (r: Option<seq<Point>>)
    ensures r.Some? ==> |r.value| == |Split(s, ' ')|
    ensures r.Some? ==> forall i :: 0 <= i < |r.value| ==> ParsePoint(Split(s, ' ')[i]) == Some(r.value[i])
    ensures r.None? ==> exists i :: 0 <= i < |Split(s, ' ')| && ParsePoint(Split(s, ' ')[i]).None?
  {
    ParsePieces(Split(s, ' '))
  }

  /** The path points of a record: an empty path string gives no points. */
  function PathOf(pathPoints: string): Option<seq<Point>> {
    if pathPoints == "" then Some([]) else ParsePathPoints(pathPoints)
  }

  /** Decimal rendering of a natural number (the partner of `ParseNumber`). */
  function NatToString(n: nat): (s: string)
    ensures s != [] && AllDigits(s)
  {
    if n < 10 then [('0' as int + n) as char]
    else NatToString(n / 10) + [('0' as int + n % 10) as char]
  }

  lemma {:induction false} DigitsValueOfNatToString(n: nat)
    ensures DigitsValue(NatToString(n)) == n
  {
    if n >= 10 {
      var s := NatToString(n);
      assert s[..|s| - 1] == NatToString(n / 10);
      DigitsValueOfNatToString(n / 10);
    }
  }

  /** Reading the decimal rendering of a natural number gives the number back. */
  lemma ParseNumberOfNatToString(n: nat)
    ensures ParseNumber(NatToString(n)) == Finite(n as real)
  {
    var s := NatToString(n);
    TrimWithoutWhitespace(s);
    assert CharIndex(s, '.') == None;
    DigitsValueOfNatToString(n);
  }

  /** A string without whitespace is its own trim. */
  lemma TrimWithoutWhitespace(s: string)
    requires forall i :: 0 <= i < |s| ==> !IsWhitespace(s[i])
    ensures Trim(s) == s
  {
    assert LeadingWhitespace(s) == 0;
    assert TrailingWhitespace(s) == 0;
  }

  lemma CharIndexAt(s: string, c: char, k: nat)
    requires k < |s| && s[k] == c && c !in s[..k]
    ensures CharIndex(s, c) == Some(k)
  {
    assert forall v :: k < v <= |s| ==> s[..v][k] == c;
    assert forall v :: 0 <= v < k ==> s[..k][v] == s[v];
  }

  /** The value written `w.f` in decimal. */
  function DecimalValue(w: nat, f: nat): real {
    w as real + f as real / Pow10(|NatToString(f)|) as real
  }

  /** Reading `w.f` gives `w` plus `f` tenths, hundredths, ... as the number of fraction digits says. */
  lemma ParseNumberOfDecimal(s: string, w: nat, f: nat)
    requires s == NatToString(w) + "." + NatToString(f)
    ensures ParseNumber(s) == Finite(DecimalValue(w, f))
  {
    var whole, frac := NatToString(w), NatToString(f);
    assert s[..|whole|] == whole && s[|whole| + 1..] == frac;
    assert forall i :: 0 <= i < |s| ==> s[i] == '.' || IsDigit(s[i]);
    UnsignedStart(s);
    assert forall i :: 0 <= i < |whole| ==> whole[i] != '.';
    CharIndexAt(s, '.', |whole|);
    DigitsValueOfNatToString(w);
    DigitsValueOfNatToString(f);
    UnsignedWithPoint(s, |whole|, w, f);
  }

  /** A point at `k` with the digits of `w` before it and those of `f` after it reads as `w.f`. */
  lemma UnsignedWithPoint(s: string, k: nat, w: nat, f: nat)
    requires CharIndex(s, '.') == Some(k)
    requires s[..k] == NatToString(w) && s[k + 1..] == NatToString(f)
    requires DigitsValue(NatToString(w)) == w && DigitsValue(NatToString(f)) == f
    ensures ParseUnsigned(s) == Finite(DecimalValue(w, f))
  {
  }

  /** A string of digits and points is read without trimming or a sign. */
  lemma UnsignedStart(s: string)
    requires forall i :: 0 <= i < |s| ==> s[i] == '.' || IsDigit(s[i])
    requires s != [] && IsDigit(s[0])
    ensures ParseNumber(s) == ParseUnsigned(s)
  {
    TrimWithoutWhitespace(s);
  }

  /** A piece "x,y" of two readable numbers is read as the point (x, y). */
  lemma ParsePointOf(piece: string, xs: string, ys: string, x: real, y: real)
    requires piece == xs + "," + ys
    requires ',' !in xs && ',' !in ys
    requires ParseNumber(xs) == Finite(x) && ParseNumber(ys) == Finite(y)
    ensures ParsePoint(piece) == Some(Point(x, y))
  {
    assert piece == Join([xs, ys], ',');
    SplitJoin([xs, ys], ',');
  }

  /** A piece "x,y" of two natural numbers in decimal is read as the point (x, y). */
  lemma ParseNatPoint(piece: string, x: nat, y: nat)
    requires piece == NatToString(x) + "," + NatToString(y)
    ensures ParsePoint(piece) == Some(Point(x as real, y as real))
  {
    ParseNumberOfNatToString(x);
    ParseNumberOfNatToString(y);
    ParsePointOf(piece, NatToString(x), NatToString(y), x as real, y as real);
  }

  lemma {:induction false} ParsePiecesAll(pieces: seq<string>, pts: seq<Point>)
    requires |pieces| == |pts|
    requires forall i :: 0 <= i < |pieces| ==> ParsePoint(pieces[i]) == Some(pts[i])
    ensures ParsePieces(pieces) == Some(pts)
    decreases |pieces|
  {
    if pieces != [] {
      ParsePiecesAll(pieces[1..], pts[1..]);
      assert [pts[0]] + pts[1..] == pts;
    }
  }

  /** A path string made of readable pieces joined by spaces is read piece by piece. */
  lemma PathOfPieces(s: string, pieces: seq<string>, pts: seq<Point>)
    requires s != "" && |pieces| >= 1 && s == Join(pieces, ' ')
    requires forall i :: 0 <= i < |pieces| ==> ' ' !in pieces[i]
    requires |pieces| == |pts|
    requires forall i :: 0 <= i < |pieces| ==> ParsePoint(pieces[i]) == Some(pts[i])
    ensures PathOf(s) == Some(pts)
  {
    SplitJoin(pieces, ' ');
    ParsePiecesAll(pieces, pts);
  }

  /** The path of a record starts at `start` and ends at `target`. */
  ghost predicate PathRunsFromTo(pathPoints: string, start: Point, target: Point) {
    var path := PathOf(pathPoints);
    path.Some? && |path.value| >= 2 && path.value[0] == start && path.value[|path.value| - 1] == target
  }

  /** A record's own path starts at its start and ends at its target. */
  ghost predicate RecordPathConsistent(d: Destination) {
    PathRunsFromTo(d.pathPoints, d.startCoord, d.targetCoord)
  }

  /** A piece "x,w.f" of natural numbers in decimal is read as the point (x, w.f). */
  lemma ParseDecimalPoint(piece: string, x: nat, w: nat, f: nat)
    requires piece == NatToString(x) + "," + NatToString(w) + "." + NatToString(f)
    ensures ParsePoint(piece) == Some(Point(x as real, DecimalValue(w, f)))
  {
    var xs, d := NatToString(x), NatToString(w) + "." + NatToString(f);
    assert piece == xs + "," + d;
    DecimalHasNoComma(d, w, f);
    DecimalPointOf(piece, xs, d, x, w, f);
  }

  lemma DecimalHasNoComma(d: string, w: nat, f: nat)
    requires d == NatToString(w) + "." + NatToString(f)
    ensures ',' !in d
  {
    assert forall i :: 0 <= i < |d| ==> d[i] == '.' || IsDigit(d[i]);
  }

  lemma DecimalPointOf(piece: string, xs: string, d: string, x: nat, w: nat, f: nat)
    requires xs == NatToString(x) && d == NatToString(w) + "." + NatToString(f)
    requires piece == xs + "," + d && ',' !in d
    ensures ParsePoint(piece) == Some(Point(x as real, DecimalValue(w, f)))
  {
    ParseNumberOfDecimal(d, w, f);
    ParseNumberOfNatToString(x);
    ParsePointOf(piece, xs, d, x as real, DecimalValue(w, f));
  }

  /** The decimal piece "x,y" for whole-number coordinates. */
  function NatPiece(x: nat, y: nat): string {
    NatToString(x) + "," + NatToString(y)
  }

  /** A whole-number piece has no space and is read as its point. */
  lemma NatPieceReads(p: string, x: nat, y: nat)
    requires p == NatPiece(x, y)
    ensures p != "" && ' ' !in p && ParsePoint(p) == Some(Point(x as real, y as real))
  {
    assert forall k :: 0 <= k < |p| ==> p[k] == ',' || IsDigit(p[k]);
    ParseNatPoint(p, x, y);
  }

  /** A path of one piece without spaces is read as that piece's point. */
  lemma PathSingle(piece: string, p: Point)
    requires ' ' !in piece && ParsePoint(piece) == Some(p)
    ensures ParsePathPoints(piece) == Some([p])
  {
    var parts := [piece];
    assert Split(piece, ' ') == parts;
    assert parts[0] == piece && parts[1..] == [];
    assert ParsePieces(parts[1..]) == Some([]);
    assert [p] + [] == [p];
  }

  /** A piece without spaces, a space, then a readable path: the piece's point comes first. */
  lemma PathCons(piece: string, rest: string, p: Point, pts: seq<Point>)
    requires ' ' !in piece && ParsePoint(piece) == Some(p)
    requires ParsePathPoints(rest) == Some(pts)
    ensures ParsePathPoints(piece + " " + rest) == Some([p] + pts)
  {
    SplitCons(piece, rest);
    var parts := [piece] + Split(rest, ' ');
    assert parts[0] == piece && parts[1..] == Split(rest, ' ');
  }

  /** Splitting at the first space of "piece rest" gives the piece, then the pieces of the rest. */
  lemma SplitCons(piece: string, rest: string)
    requires ' ' !in piece
    ensures Split(piece + " " + rest, ' ') == [piece] + Split(rest, ' ')
  {
    var s := piece + " " + rest;
    assert s[..|piece|] == piece && s[|piece| + 1..] == rest;
    CharIndexAt(s, ' ', |piece|);
  }

  // The paths of the fixed records: each literal path string reads as its waypoints.

  /** Two readable pieces without spaces, separated by a space, read as the two points. */
  lemma TwoPointPath(s: string, a: string, b: string, p0: Point, p1: Point)
    requires ' ' !in a && ParsePoint(a) == Some(p0)
    requires ' ' !in b && ParsePoint(b) == Some(p1)
    requires s == a + " " + b
    ensures PathOf(s) == Some([p0, p1])
  {
    PathSingle(b, p1);
    PathCons(a, b, p0, [p1]);
    TwoPoints(p0, p1);
  }

  /** Four readable pieces without spaces, separated by spaces, read as the four points. */
  lemma FourPointPath(s: string, a: string, b: string, c: string, d: string, p0: Point, p1: Point, p2: Point, p3: Point)
    requires ' ' !in a && ParsePoint(a) == Some(p0)
    requires ' ' !in b && ParsePoint(b) == Some(p1)
    requires ' ' !in c && ParsePoint(c) == Some(p2)
    requires ' ' !in d && ParsePoint(d) == Some(p3)
    requires s == a + " " + (b + " " + (c + " " + d))
    ensures PathOf(s) == Some([p0, p1, p2, p3])
  {
    PathSingle(d, p3);
    PathCons(c, d, p2, [p3]);
    PathCons(b, c + " " + d, p1, [p2] + [p3]);
    PathCons(a, b + " " + (c + " " + d), p0, [p1] + ([p2] + [p3]));
    FourPoints(p0, p1, p2, p3);
  }

  lemma EntrancePoint(p: string)
    requires p == NatPiece(50, 95)
    ensures ' ' !in p && ParsePoint(p) == Some(Point(50.0, 95.0))
  {
    NatPieceReads(p, 50, 95);
  }

  lemma StagePoint(p: string)
    requires p == NatToString(50) + "," + NatToString(3) + "." + NatToString(2)
    ensures ' ' !in p && ParsePoint(p) == Some(Point(50.0, 3.2))
  {
    assert forall k :: 0 <= k < |p| ==> p[k] == ',' || p[k] == '.' || IsDigit(p[k]);
    ParseDecimalPoint(p, 50, 3, 2);
    StageDepth();
  }

  /** "50,95 50,3.2": the straight walk from the auditorium entrance to the stage. */
  lemma StagePath(s: string)
    requires s == "50,95 50,3.2"
    ensures PathOf(s) == Some([Point(50.0, 95.0), Point(50.0, 3.2)])
  {
    var a, b := StagePieces(s);
    StagePieceValues();
    EntrancePoint(a);
    StagePoint(b);
    TwoPointPath(s, a, b, Point(50.0, 95.0), Point(50.0, 3.2));
  }

  /** "50,95 50,60 40,60 40,40": the entrance to the green room. */
  lemma GreenRoomPath(s: string)
    requires s == "50,95 50,60 40,60 40,40"
    ensures PathOf(s) == Some([Point(50.0, 95.0), Point(50.0, 60.0), Point(40.0, 60.0), Point(40.0, 40.0)])
  {
    var a, b, c, d := GreenRoomPieces(s);
    GreenRoomPieceValues();
    NatPieceReads(a, 50, 95);
    NatPieceReads(b, 50, 60);
    NatPieceReads(c, 40, 60);
    NatPieceReads(d, 40, 40);
    FourPointPath(s, a, b, c, d, Point(50.0, 95.0), Point(50.0, 60.0), Point(40.0, 60.0), Point(40.0, 40.0));
  }

  /** "50,95 50,60 20,60 20,40": the entrance to the left green room. */
  lemma LeftGreenRoomPath(s: string)
    requires s == "50,95 50,60 20,60 20,40"
    ensures PathOf(s) == Some([Point(50.0, 95.0), Point(50.0, 60.0), Point(20.0, 60.0), Point(20.0, 40.0)])
  {
    var a, b, c, d := LeftGreenRoomPieces(s);
    LeftGreenRoomPieceValues();
    NatPieceReads(a, 50, 95);
    NatPieceReads(b, 50, 60);
    NatPieceReads(c, 20, 60);
    NatPieceReads(d, 20, 40);
    FourPointPath(s, a, b, c, d, Point(50.0, 95.0), Point(50.0, 60.0), Point(20.0, 60.0), Point(20.0, 40.0));
  }

  /** "50,95 50,60 80,60 80,40": the entrance to the right green room. */
  lemma RightGreenRoomPath(s: string)
    requires s == "50,95 50,60 80,60 80,40"
    ensures PathOf(s) == Some([Point(50.0, 95.0), Point(50.0, 60.0), Point(80.0, 60.0), Point(80.0, 40.0)])
  {
    var a, b, c, d := RightGreenRoomPieces(s);
    RightGreenRoomPieceValues();
    NatPieceReads(a, 50, 95);
    NatPieceReads(b, 50, 60);
    NatPieceReads(c, 80, 60);
    NatPieceReads(d, 80, 40);
    FourPointPath(s, a, b, c, d, Point(50.0, 95.0), Point(50.0, 60.0), Point(80.0, 60.0), Point(80.0, 40.0));
  }

  /** "50,95 50,70 80,70 80,20": the entrance to the emergency exit on the right wall. */
  lemma EmergencyExitPath(s: string)
    requires s == "50,95 50,70 80,70 80,20"
    ensures PathOf(s) == Some([Point(50.0, 95.0), Point(50.0, 70.0), Point(80.0, 70.0), Point(80.0, 20.0)])
  {
    var a, b, c, d := EmergencyExitPieces(s);
    EmergencyExitPieceValues();
    NatPieceReads(a, 50, 95);
    NatPieceReads(b, 50, 70);
    NatPieceReads(c, 80, 70);
    NatPieceReads(d, 80, 20);
    FourPointPath(s, a, b, c, d, Point(50.0, 95.0), Point(50.0, 70.0), Point(80.0, 70.0), Point(80.0, 20.0));
  }

  /** "10,50 90,50": across the pharmacy ground floor. */
  lemma PharmacyPath(s: string)
    requires s == "10,50 90,50"
    ensures PathOf(s) == Some([Point(10.0, 50.0), Point(90.0, 50.0)])
  {
    var a, b := PharmacyPieces(s);
    PharmacyPieceValues();
    NatPieceReads(a, 10, 50);
    NatPieceReads(b, 90, 50);
    TwoPointPath(s, a, b, Point(10.0, 50.0), Point(90.0, 50.0));
  }

  // Helpers for the record paths above: each literal is cut into its pieces,
  // and each piece is matched with the rendering the reading lemmas take.
  // They keep the solver from unfolding the string literals.

  lemma TwoPoints(p0: Point, p1: Point)
    ensures [p0] + [p1] == [p0, p1]
  {
  }

  lemma FourPoints(p0: Point, p1: Point, p2: Point, p3: Point)
    ensures [p0] + ([p1] + ([p2] + [p3])) == [p0, p1, p2, p3]
  {
  }

  lemma StageDepth()
    ensures DecimalValue(3, 2) == 3.2
  {
  }

  /** The two pieces of the stage path, in the shapes the reading lemmas take. */
  lemma StagePieces(s: string) returns (a: string, b: string)
    requires s == "50,95 50,3.2"
    ensures s == a + " " + b
    ensures a == "50,95" && b == "50,3.2"
  {
    a, b := "50,95", "50,3.2";
  }

  lemma StagePieceValues()
    ensures "50,95" == NatPiece(50, 95)
    ensures "50,3.2" == NatToString(50) + "," + NatToString(3) + "." + NatToString(2)
  {
  }

  lemma GreenRoomPieces(s: string) returns (a: string, b: string, c: string, d: string)
    requires s == "50,95 50,60 40,60 40,40"
    ensures s == a + " " + (b + " " + (c + " " + d))
    ensures a == "50,95" && b == "50,60" && c == "40,60" && d == "40,40"
  {
    a, b, c, d := "50,95", "50,60", "40,60", "40,40";
  }

  lemma GreenRoomPieceValues()
    ensures "50,95" == NatPiece(50, 95)
    ensures "50,60" == NatPiece(50, 60)
    ensures "40,60" == NatPiece(40, 60)
    ensures "40,40" == NatPiece(40, 40)
  {
  }

  lemma LeftGreenRoomPieces(s: string) returns (a: string, b: string, c: string, d: string)
    requires s == "50,95 50,60 20,60 20,40"
    ensures s == a + " " + (b + " " + (c + " " + d))
    ensures a == "50,95" && b == "50,60" && c == "20,60" && d == "20,40"
  {
    a, b, c, d := "50,95", "50,60", "20,60", "20,40";
  }

  lemma LeftGreenRoomPieceValues()
    ensures "50,95" == NatPiece(50, 95)
    ensures "50,60" == NatPiece(50, 60)
    ensures "20,60" == NatPiece(20, 60)
    ensures "20,40" == NatPiece(20, 40)
  {
  }

  lemma RightGreenRoomPieces(s: string) returns (a: string, b: string, c: string, d: string)
    requires s == "50,95 50,60 80,60 80,40"
    ensures s == a + " " + (b + " " + (c + " " + d))
    ensures a == "50,95" && b == "50,60" && c == "80,60" && d == "80,40"
  {
    a, b, c, d := "50,95", "50,60", "80,60", "80,40";
  }

  lemma RightGreenRoomPieceValues()
    ensures "50,95" == NatPiece(50, 95)
    ensures "50,60" == NatPiece(50, 60)
    ensures "80,60" == NatPiece(80, 60)
    ensures "80,40" == NatPiece(80, 40)
  {
  }

  lemma EmergencyExitPieces(s: string) returns (a: string, b: string, c: string, d: string)
    requires s == "50,95 50,70 80,70 80,20"
    ensures s == a + " " + (b + " " + (c + " " + d))
    ensures a == "50,95" && b == "50,70" && c == "80,70" && d == "80,20"
  {
    a, b, c, d := "50,95", "50,70", "80,70", "80,20";
  }

  lemma EmergencyExitPieceValues()
    ensures "50,95" == NatPiece(50, 95)
    ensures "50,70" == NatPiece(50, 70)
    ensures "80,70" == NatPiece(80, 70)
    ensures "80,20" == NatPiece(80, 20)
  {
  }

  lemma PharmacyPieces(s: string) returns (a: string, b: string)
    requires s == "10,50 90,50"
    ensures s == a + " " + b
    ensures a == "10,50" && b == "90,50"
  {
    a, b := "10,50", "90,50";
  }

  lemma PharmacyPieceValues()
    ensures "10,50" == NatPiece(10, 50)
    ensures "90,50" == NatPiece(90, 50)
  {
  }
}

=== FILE: qr_scanner.dfy ===
/**
 * The QR scanner (screens/QRScanner.js): a scanned code is looked up in a
 * table of entrance records, and a latch makes sure one scan is handled at a
 * time. A known code hands its record on; an unknown one raises an alert whose
 * "Try Again" button re-opens the latch.
 */
module QRScanner {
  import opened Wrappers
  import opened Location
  import opened PathParsing

  const AuditoriumEntrance := Destination(
    "aud_entrance", "Auditorium Entrance", "Auditorium", "Ground", 42, 32.0, 171,
    Point(50.0, 3.2), Point(50.0, 95.0), "50,95 50,3.2",
    "You are at Auditorium Entrance. Walk straight ahead.",
    "", "", false, [])

  const PharmacyGroundEntrance := Destination(
    "pharm_g_entrance", "Pharmacy Ground Floor", "Pharmacy", "Ground", 35, 28.0, 90,
    Point(90.0, 50.0), Point(10.0, 50.0), "10,50 90,50",
    "You are at Pharmacy Ground Floor entrance.",
    "", "", false, [])

  /** `LOCATION_DATA`: the codes printed on the entrance QR stickers and their records. */
  const LocationData: map<string, Destination> :=
    map["aud_entrance" := AuditoriumEntrance, "pharm_g_entrance" := PharmacyGroundEntrance]

  /** The property names every plain JavaScript object inherits from `Object.prototype`. */
  const ObjectPrototypeKeys: set<string> := {
    "constructor", "hasOwnProperty", "isPrototypeOf", "propertyIsEnumerable", "toLocaleString",
    "toString", "valueOf", "__proto__", "__defineGetter__", "__defineSetter__",
    "__lookupGetter__", "__lookupSetter__"}

  /** What `LOCATION_DATA[data]` evaluates to: an own record, an inherited member, or `undefined`. */
  datatype Lookup = Record(d: Destination) | Inherited(name: string) | Undefined

  /** `LOCATION_DATA[data]` as the screen writes it: the bracket lookup also sees inherited members. */
  function LookupAsWritten(data: string): (r: Lookup)
    ensures data in LocationData ==> r == Record(LocationData[data])
    ensures data !in LocationData && data in ObjectPrototypeKeys ==> r == Inherited(data)
    ensures data !in LocationData && data !in ObjectPrototypeKeys ==> r == Undefined
  {
    if data in LocationData then Record(LocationData[data])
    else if data in ObjectPrototypeKeys then Inherited(data)
    else Undefined
  }

  /** `if (locationData)`: records and inherited members are truthy, `undefined` is not. */
  predicate Truthy(l: Lookup) {
    !l.Undefined?
  }

  /** A code reading "constructor" is accepted as a location although the table has no such entry. */
  lemma PrototypeKeyAccepted(data: string)
    requires data == "constructor"
    ensures data !in LocationData
    ensures Truthy(LookupAsWritten(data)) && !LookupAsWritten(data).Record?
  {
    assert data in ObjectPrototypeKeys;
  }

  /** The lookup the screen evidently means: only the table's own codes are found. */
  function LookupLocation(data: string): (r: Option<Destination>)
    ensures r.Some? <==> data in LocationData
    ensures r.Some? ==> r.value == LocationData[data]
  {
    if data in LocationData then Some(LocationData[data]) else None
  }

  /** On the table's own codes the two lookups agree; they differ only on inherited names. */
  lemma LookupsAgreeOnTable(data: string)
    ensures Truthy(LookupAsWritten(data)) && LookupLocation(data).None? <==> data !in LocationData && data in ObjectPrototypeKeys
    ensures LookupLocation(data).Some? ==> LookupAsWritten(data) == Record(LookupLocation(data).value)
  {
  }

  /** Each code is its record's id. */
  lemma LocationKeysAreIds()
    ensures forall code :: code in LocationData ==> LocationData[code].id == code
  {
  }

  /** The record behind every code has a path that walks from its start to its target. */
  lemma LocationDataConsistent(code: string, d: Destination)
    requires code in LocationData && d == LocationData[code]
    ensures RecordPathConsistent(d)
  {
    if code == "aud_entrance" {
      assert d == AuditoriumEntrance;
      AuditoriumEntranceConsistent();
    } else {
      assert d == PharmacyGroundEntrance;
      PharmacyGroundConsistent();
    }
  }

  lemma AuditoriumEntranceConsistent()
    ensures RecordPathConsistent(AuditoriumEntrance)
  {
    StagePath(AuditoriumEntrance.pathPoints);
  }

  lemma PharmacyGroundConsistent()
    ensures RecordPathConsistent(PharmacyGroundEntrance)
  {
    PharmacyPath(PharmacyGroundEntrance.pathPoints);
  }

  /** The scanner screen: the latch, the records handed to `onScanSuccess`, and the "Invalid QR" alert. */
  class ScannerScreen {
    /** Whether the parent passed an `onScanSuccess` callback. */
    const hasCallback: bool
    var scanned: bool
    var alertShown: bool
    /** Every record handed to `onScanSuccess`, oldest first. */
    var delivered: seq<Destination>

    /** The alert only follows a latched scan that found nothing; a delivery keeps the latch shut for good. */
    predicate Valid()
      reads this
    {
      (alertShown ==> scanned && delivered == []) &&
      (delivered != [] ==> scanned && !alertShown) &&
      |delivered| <= 1
    }

    constructor(hasCallback: bool)
      ensures Valid()
      ensures this.hasCallback == hasCallback && !scanned && !alertShown && delivered == []
    {
      this.hasCallback := hasCallback;
      scanned := false;
      alertShown := false;
      delivered := [];
    }

    /** `handleBarCodeScanned`: ignored while latched; otherwise latch, then deliver the record or raise the alert. */
    method HandleBarCodeScanned(data: string)
      requires Valid()
      modifies this`scanned, this`alertShown, this`delivered
      ensures Valid()
      ensures old(scanned) ==> scanned && alertShown == old(alertShown) && delivered == old(delivered)
      ensures !old(scanned) ==> scanned
      ensures !old(scanned) && data in LocationData ==>
        !alertShown && delivered == old(delivered) + (if hasCallback then [LocationData[data]] else [])
      ensures !old(scanned) && data !in LocationData ==> alertShown && delivered == old(delivered)
    {
      if scanned {
        return;
      }
      scanned := true;
      var locationData := LookupLocation(data);
      if locationData.Some? {
        if hasCallback {
          delivered := delivered + [locationData.value];
        }
      } else {
        alertShown := true;
      }
    }

    /** The alert's "Try Again" button: close the alert and re-open the latch. */
    method TryAgain()
      requires Valid() && alertShown
      modifies this`scanned, this`alertShown
      ensures Valid()
      ensures !scanned && !alertShown
    {
      alertShown := false;
      scanned := false;
    }
  }

  /** However scans and retries interleave, at most one record is ever handed on. */
  method ScanSequence(hasCallback: bool, codes: seq<string>, retry: seq<bool>) returns (screen: ScannerScreen)
    requires |retry| == |codes|
    ensures screen.Valid() && |screen.delivered| <= 1
  {
    screen := new ScannerScreen(hasCallback);
    for i := 0 to |codes|
      invariant screen.Valid()
    {
      screen.HandleBarCodeScanned(codes[i]);
      if retry[i] && screen.alertShown {
        screen.TryAgain();
      }
    }
  }
}

=== FILE: seqs.dfy ===
/**
 * The two array operations the screens use on their constant tables:
 * `Array.prototype.find` (first element satisfying a predicate) and
 * `Array.prototype.filter` (every element satisfying it, in order).
 */
module Seqs {
  import opened Wrappers

  /** Index of the first element of `xs` satisfying `p`, or None (the `find` of the screens). */
  function FindFirst<T>(xs: seq<T>, p: T -> bool): (r: Option<nat>)
    ensures r.Some? ==> r.value < |xs| && p(xs[r.value])
    ensures r.Some? ==> forall j :: 0 <= j < r.value ==> !p(xs[j])
    ensures r.None? ==> forall j :: 0 <= j < |xs| ==> !p(xs[j])
    decreases |xs|
  {
    if xs == [] then None
    else if p(xs[0]) then Some(0)
    else
      match FindFirst(xs[1..], p)
      case None => None
      case Some(k) => Some(k + 1)
  }

  /** The first element satisfying `p` is the one found. */
  lemma FindFirstAt<T>(xs: seq<T>, p: T -> bool, i: nat)
    requires i < |xs| && p(xs[i])
    requires forall j :: 0 <= j < i ==> !p(xs[j])
    ensures FindFirst(xs, p) == Some(i)
  {
  }

  /** The elements of `xs` satisfying `p`, in their original order (the `filter` of the screens). */
  function Filter<T>(xs: seq<T>, p: T -> bool): (r: seq<T>)
    ensures |r| <= |xs|
    ensures forall i :: 0 <= i < |r| ==> r[i] in xs && p(r[i])
    ensures forall i :: 0 <= i < |xs| && p(xs[i]) ==> xs[i] in r
    decreases |xs|
  {
    if xs == [] then []
    else (if p(xs[0]) then [xs[0]] else []) + Filter(xs[1..], p)
  }

  /** Filtering distributes over concatenation: the order of the kept elements is the input order. */
  lemma {:induction false} FilterAppend<T>(a: seq<T>, b: seq<T>, p: T -> bool)
    ensures Filter(a + b, p) == Filter(a, p) + Filter(b, p)
    decreases |a|
  {
    if a == [] {
      assert a + b == b;
    } else {
      assert (a + b)[1..] == a[1..] + b;
      FilterAppend(a[1..], b, p);
    }
  }

  /** When every element satisfies the predicate, filtering keeps the whole sequence. */
  lemma {:induction false} FilterAll<T>(xs: seq<T>, p: T -> bool)
    requires forall i :: 0 <= i < |xs| ==> p(xs[i])
    ensures Filter(xs, p) == xs
    decreases |xs|
  {
    if xs != [] {
      FilterAll(xs[1..], p);
    }
  }
}

=== FILE: server.dfy ===
/**
 * The real-time tables of the backend (backend/server.js): who is online,
 * keyed by socket id, and the active navigation sessions, keyed by session
 * id, each with the route its owner has reported so far. Every socket event
 * handler runs to completion before the next, so each is a method of one
 * object. A JavaScript `Map` remembers insertion order; `sessionOrder` keeps
 * that order for the session table, whose listing and clean-up walk it.
 */
module Server {
  import opened Wrappers
  import PathParsing

  datatype OnlineUser = OnlineUser(socketId: string, userId: string, name: string)

  /** One reported position. */
  datatype RoutePoint = RoutePoint(latitude: real, longitude: real, accuracy: real)

  datatype Session = Session(sessionId: string, userId: string, locationId: string, userSocketId: string, route: seq<RoutePoint>)

  /** An entry of the `get:active-sessions` reply. */
  datatype SessionSummary = SessionSummary(sessionId: string, userId: string, locationId: string)

  /** No value occurs twice. */
  predicate Distinct(s: seq<string>) {
    forall i, j :: 0 <= i < j < |s| ==> s[i] != s[j]
  }

  /** `s` without its first `x`. */
  function RemoveId(s: seq<string>, x: string): (r: seq<string>)
    ensures forall y :: y in r ==> y in s
    ensures forall y :: y in s && y != x ==> y in r
    decreases |s|
  {
    if s == [] then []
    else if s[0] == x then s[1..]
    else [s[0]] + RemoveId(s[1..], x)
  }

  /** Removing from a list without repeats leaves no repeats and no `x`. */
  lemma {:induction false} RemoveIdDistinct(s: seq<string>, x: string)
    requires Distinct(s)
    ensures Distinct(RemoveId(s, x)) && x !in RemoveId(s, x)
    decreases |s|
  {
    if s != [] && s[0] != x {
      var tail := s[1..];
      assert Distinct(tail);
      RemoveIdDistinct(tail, x);
      assert s[0] !in tail;
      assert s[0] !in RemoveId(tail, x);
    }
  }

  /** Removing an `x` that only follows `a` leaves `a` and what came after `x`. */
  lemma {:induction false} RemoveIdAfter(a: seq<string>, x: string, b: seq<string>)
    requires x !in a
    ensures RemoveId(a + [x] + b, x) == a + b
    decreases |a|
  {
    if a != [] {
      assert (a + [x] + b)[1..] == a[1..] + [x] + b;
      RemoveIdAfter(a[1..], x, b);
    }
  }

  /** A list without repeats has as many elements as its set. */
  lemma {:induction false} DistinctCardinality(s: seq<string>)
    requires Distinct(s)
    ensures |set x | x in s| == |s|
    decreases |s|
  {
    if s != [] {
      var rest := s[1..];
      DistinctCardinality(rest);
      assert (set x | x in s) == {s[0]} + (set x | x in rest);
      assert s[0] !in rest;
    }
  }

  /** The ids of `ids` whose sessions in `m` are not owned by `socketId`, in order. */
  function KeptIds(ids: seq<string>, m: map<string, Session>, socketId: string): (r: seq<string>)
    ensures forall y :: y in r <==> y in ids && (y in m ==> m[y].userSocketId != socketId)
    ensures Distinct(ids) ==> Distinct(r)
    decreases |ids|
  {
    if ids == [] then []
    else
      var last := ids[|ids| - 1];
      var prefix := KeptIds(ids[..|ids| - 1], m, socketId);
      assert forall y :: y in prefix ==> y in ids[..|ids| - 1];
      if last in m && m[last].userSocketId == socketId then prefix else prefix + [last]
  }

  /** One socket starting navigation at two different milliseconds gets two different session ids. */
  lemma SessionIdsDiffer(socketId: string, t1: nat, t2: nat)
    requires t1 != t2
    ensures SessionIdFor(socketId, t1) != SessionIdFor(socketId, t2)
  {
    var prefix := socketId + "_";
    var a, b := PathParsing.NatToString(t1), PathParsing.NatToString(t2);
    if prefix + a == prefix + b {
      assert a == (prefix + a)[|prefix|..];
      assert b == (prefix + b)[|prefix|..];
      PathParsing.DigitsValueOfNatToString(t1);
      PathParsing.DigitsValueOfNatToString(t2);
    }
  }

  /** Each session is filed under its own id, and `order` lists the ids of `m` once each. */
  predicate SessionTable(m: map<string, Session>, order: seq<string>) {
    (forall k :: k in m ==> m[k].sessionId == k) &&
    (forall k :: k in order ==> k in m) &&
    (forall k :: k in m ==> k in order) &&
    Distinct(order)
  }

  /** Ending a session keeps the table well formed. */
  lemma EndKeepsTable(m: map<string, Session>, order: seq<string>, id: string)
    requires SessionTable(m, order)
    ensures SessionTable(m - {id}, RemoveId(order, id))
  {
    RemoveIdDistinct(order, id);
  }

  /** `m` after the sessions named in `ids` that `socketId` owns have been deleted one by one, in order. */
  function WithoutOwned(m: map<string, Session>, ids: seq<string>, socketId: string): (r: map<string, Session>)
    ensures forall k :: k in r <==> k in m && !(k in ids && m[k].userSocketId == socketId)
    ensures forall k :: k in r ==> r[k] == m[k]
    decreases |ids|
  {
    if ids == [] then m
    else
      var last := ids[|ids| - 1];
      var rest := WithoutOwned(m, ids[..|ids| - 1], socketId);
      assert forall k :: k in ids <==> k in ids[..|ids| - 1] || k == last;
      if last in m && m[last].userSocketId == socketId then rest - {last} else rest
  }

  /** The sessions of `m` not owned by `socketId`. */
  function SessionsNotOwnedBy(m: map<string, Session>, socketId: string): (r: map<string, Session>)
    ensures forall k :: k in r <==> k in m && m[k].userSocketId != socketId
    ensures forall k :: k in r ==> r[k] == m[k]
  {
    map k | k in m && m[k].userSocketId != socketId :: m[k]
  }

  /** The summaries of the sessions named by `ids`, in that order. */
  function Summaries(ids: seq<string>, m: map<string, Session>): (r: seq<SessionSummary>)
    requires forall i :: 0 <= i < |ids| ==> ids[i] in m
    ensures |r| == |ids|
    ensures forall i :: 0 <= i < |ids| ==>
      r[i] == SessionSummary(m[ids[i]].sessionId, m[ids[i]].userId, m[ids[i]].locationId)
  {
    seq(|ids|, i requires 0 <= i < |ids| => SessionSummary(m[ids[i]].sessionId, m[ids[i]].userId, m[ids[i]].locationId))
  }

  /** The id `navigation:start` gives a session: the socket id, an underscore, and the time in milliseconds. */
  function SessionIdFor(socketId: string, now: nat): (id: string)
    ensures |id| > |socketId| + 1 && id[..|socketId| + 1] == socketId + "_"
    ensures PathParsing.AllDigits(id[|socketId| + 1..]) && PathParsing.DigitsValue(id[|socketId| + 1..]) == now
  {
    PathParsing.DigitsValueOfNatToString(now);
    socketId + "_" + PathParsing.NatToString(now)
  }

  /** One step of the disconnect walk over `ids`, which names each session of `before` once. */
  lemma DisconnectStep(before: map<string, Session>, ids: seq<string>, i: nat, socketId: string)
    requires Distinct(ids) && i < |ids|
    requires forall j :: 0 <= j < |ids| ==> ids[j] in before
    ensures ids[i] in WithoutOwned(before, ids[..i], socketId)
    ensures WithoutOwned(before, ids[..i], socketId)[ids[i]] == before[ids[i]]
    ensures before[ids[i]].userSocketId == socketId ==>
      WithoutOwned(before, ids[..i + 1], socketId) == WithoutOwned(before, ids[..i], socketId) - {ids[i]} &&
      RemoveId(KeptIds(ids[..i], before, socketId) + ids[i..], ids[i]) == KeptIds(ids[..i + 1], before, socketId) + ids[i + 1..]
    ensures before[ids[i]].userSocketId != socketId ==>
      WithoutOwned(before, ids[..i + 1], socketId) == WithoutOwned(before, ids[..i], socketId) &&
      KeptIds(ids[..i], before, socketId) + ids[i..] == KeptIds(ids[..i + 1], before, socketId) + ids[i + 1..]
  {
    var id := ids[i];
    assert ids[..i + 1] == ids[..i] + [id];
    assert ids[i..] == [id] + ids[i + 1..];
    assert id !in ids[..i];
    assert id !in KeptIds(ids[..i], before, socketId);
    var kept := KeptIds(ids[..i], before, socketId);
    assert ids[..i + 1][..i] == ids[..i];
    assert kept + ids[i..] == kept + [id] + ids[i + 1..];
    if before[id].userSocketId == socketId {
      assert KeptIds(ids[..i + 1], before, socketId) == kept;
      RemoveIdAfter(kept, id, ids[i + 1..]);
    } else {
      assert KeptIds(ids[..i + 1], before, socketId) == kept + [id];
    }
  }

  /** Before the walk nothing is deleted, and `ids` names each session of `before` once. */
  lemma DisconnectStart(before: map<string, Session>, ids: seq<string>, socketId: string)
    requires SessionTable(before, ids)
    ensures Distinct(ids) && forall j :: 0 <= j < |ids| ==> ids[j] in before
    ensures WithoutOwned(before, ids[..0], socketId) == before
    ensures KeptIds(ids[..0], before, socketId) + ids[0..] == ids
  {
    assert forall j :: 0 <= j < |ids| ==> ids[j] in ids;
    assert ids[..0] == [];
  }

  /** After the walk, the table holds exactly the sessions the socket did not own, listed in their old order. */
  lemma DisconnectLeavesValid(before: map<string, Session>, ids: seq<string>, socketId: string)
    requires SessionTable(before, ids)
    ensures WithoutOwned(before, ids[..|ids|], socketId) == SessionsNotOwnedBy(before, socketId)
    ensures KeptIds(ids[..|ids|], before, socketId) + ids[|ids|..] == KeptIds(ids, before, socketId)
    ensures SessionTable(SessionsNotOwnedBy(before, socketId), KeptIds(ids, before, socketId))
  {
    assert ids[..|ids|] == ids;
    assert ids[|ids|..] == [];
  }

  class PresenceServer {
    var onlineUsers: map<string, OnlineUser>
    var sessions: map<string, Session>
    /** The keys of `sessions`, oldest first. */
    var sessionOrder: seq<string>

    /** Each entry is filed under its own id, and `sessionOrder` lists the session ids once each. */
    predicate Valid()
      reads this
    {
      (forall k :: k in onlineUsers ==> onlineUsers[k].socketId == k) &&
      SessionTable(sessions, sessionOrder)
    }

    constructor()
      ensures Valid()
      ensures onlineUsers == map[] && sessions == map[] && sessionOrder == []
    {
      onlineUsers := map[];
      sessions := map[];
      sessionOrder := [];
    }

    /** The session table lists as many ids as it holds sessions. */
    lemma OrderMatchesSize()
      requires Valid()
      ensures |sessionOrder| == |sessions|
    {
      DistinctCardinality(sessionOrder);
      assert (set x | x in sessionOrder) == sessions.Keys;
    }

    /** `user:join`: file the user under the socket id, and report how many are online. */
    method UserJoin(socketId: string, userId: string, name: string) returns (onlineCount: nat)
      requires Valid()
      modifies this`onlineUsers
      ensures Valid()
      ensures onlineUsers == old(onlineUsers)[socketId := OnlineUser(socketId, userId, name)]
      ensures onlineCount == |onlineUsers|
      ensures onlineCount == |old(onlineUsers)| + (if socketId in old(onlineUsers) then 0 else 1)
    {
      onlineUsers := onlineUsers[socketId := OnlineUser(socketId, userId, name)];
      onlineCount := |onlineUsers|;
    }

    /**
     * `navigation:start`: open a session with an empty route owned by the
     * socket, and report how many sessions are active. An id that is already
     * taken (same socket, same millisecond) is overwritten in place.
     */
    method NavigationStart(socketId: string, now: nat, userId: string, locationId: string) returns (sessionId: string, activeCount: nat)
      requires Valid()
      modifies this`sessions, this`sessionOrder
      ensures Valid()
      ensures sessionId == SessionIdFor(socketId, now)
      ensures sessions == old(sessions)[sessionId := Session(sessionId, userId, locationId, socketId, [])]
      ensures sessionOrder == if sessionId in old(sessions) then old(sessionOrder) else old(sessionOrder) + [sessionId]
      ensures activeCount == |sessions|
    {
      sessionId := SessionIdFor(socketId, now);
      if sessionId !in sessions {
        sessionOrder := sessionOrder + [sessionId];
      }
      sessions := sessions[sessionId := Session(sessionId, userId, locationId, socketId, [])];
      activeCount := |sessions|;
    }

    /** `navigation:location-update`: add the point to the end of a known session's route; an unknown id changes nothing. */
    method LocationUpdate(sessionId: string, latitude: real, longitude: real, accuracy: real)
      requires Valid()
      modifies this`sessions
      ensures Valid()
      ensures sessionId !in old(sessions) ==> sessions == old(sessions)
      ensures sessionId in old(sessions) ==>
        sessions == old(sessions)[sessionId := old(sessions)[sessionId].(route := old(sessions)[sessionId].route + [RoutePoint(latitude, longitude, accuracy)])]
    {
      if sessionId in sessions {
        var session := sessions[sessionId];
        sessions := sessions[sessionId := session.(route := session.route + [RoutePoint(latitude, longitude, accuracy)])];
      }
    }

    /** `navigation:end`: remove a known session and hand back what it recorded; an unknown id changes nothing. */
    method NavigationEnd(sessionId: string) returns (ended: Option<Session>, activeCount: nat)
      requires Valid()
      modifies this`sessions, this`sessionOrder
      ensures Valid()
      ensures sessionId !in old(sessions) ==> ended == None && sessions == old(sessions) && sessionOrder == old(sessionOrder)
      ensures sessionId in old(sessions) ==>
        ended == Some(old(sessions)[sessionId]) && sessions == old(sessions) - {sessionId} &&
        sessionOrder == RemoveId(old(sessionOrder), sessionId)
      ensures activeCount == |sessions|
    {
      ended := None;
      if sessionId in sessions {
        ended := Some(sessions[sessionId]);
        EndKeepsTable(sessions, sessionOrder, sessionId);
        sessions := sessions - {sessionId};
        sessionOrder := RemoveId(sessionOrder, sessionId);
      }
      activeCount := |sessions|;
    }

    /** `get:active-sessions`: the number of sessions, and a summary of each, oldest first. */
    method ActiveSessions() returns (count: nat, summaries: seq<SessionSummary>)
      requires Valid()
      ensures count == |sessions| && |summaries| == count
      ensures summaries == Summaries(sessionOrder, sessions)
    {
      count := |sessions|;
      summaries := [];
      for i := 0 to |sessionOrder|
        invariant summaries == Summaries(sessionOrder[..i], sessions)
      {
        var s := sessions[sessionOrder[i]];
        summaries := summaries + [SessionSummary(s.sessionId, s.userId, s.locationId)];
      }
      assert sessionOrder[..|sessionOrder|] == sessionOrder;
      OrderMatchesSize();
    }

    /**
     * `disconnect`: forget the user, then walk the sessions in order and
     * delete each one the socket owns; every other session stays as it was.
     */
    method Disconnect(socketId: string) returns (onlineCount: nat, activeCount: nat)
      requires Valid()
      modifies this`onlineUsers, this`sessions, this`sessionOrder
      ensures Valid()
      ensures onlineUsers == old(onlineUsers) - {socketId}
      ensures sessions == SessionsNotOwnedBy(old(sessions), socketId)
      ensures sessionOrder == KeptIds(old(sessionOrder), old(sessions), socketId)
      ensures onlineCount == |onlineUsers| && activeCount == |sessions|
    {
      onlineUsers := onlineUsers - {socketId};
      DeleteSessionsOf(socketId);
      onlineCount := |onlineUsers|;
      activeCount := |sessions|;
    }

    /** One entry of the walk: delete the session if the socket owns it. */
    method DeleteIfOwned(id: string, socketId: string)
      requires id in sessions
      modifies this`sessions, this`sessionOrder
      ensures old(sessions)[id].userSocketId == socketId ==>
        sessions == old(sessions) - {id} && sessionOrder == RemoveId(old(sessionOrder), id)
      ensures old(sessions)[id].userSocketId != socketId ==>
        sessions == old(sessions) && sessionOrder == old(sessionOrder)
    {
      if sessions[id].userSocketId == socketId {
        sessions := sessions - {id};
        sessionOrder := RemoveId(sessionOrder, id);
      }
    }

    /** Entry `i` of the walk over `ids`, the session ids of `before` in order. */
    method DeleteStep(ghost before: map<string, Session>, ids: seq<string>, i: nat, socketId: string)
      requires Distinct(ids) && i < |ids|
      requires forall j :: 0 <= j < |ids| ==> ids[j] in before
      requires sessions == WithoutOwned(before, ids[..i], socketId)
      requires sessionOrder == KeptIds(ids[..i], before, socketId) + ids[i..]
      modifies this`sessions, this`sessionOrder
      ensures sessions == WithoutOwned(before, ids[..i + 1], socketId)
      ensures sessionOrder == KeptIds(ids[..i + 1], before, socketId) + ids[i + 1..]
    {
      DisconnectStep(before, ids, i, socketId);
      DeleteIfOwned(ids[i], socketId);
    }

    /** The `for ... of` walk of `disconnect`: delete, entry by entry, the sessions the socket owns. */
    method DeleteSessionsOf(socketId: string)
      requires SessionTable(sessions, sessionOrder)
      modifies this`sessions, this`sessionOrder
      ensures SessionTable(sessions, sessionOrder)
      ensures sessions == SessionsNotOwnedBy(old(sessions), socketId)
      ensures sessionOrder == KeptIds(old(sessionOrder), old(sessions), socketId)
    {
      var ids := sessionOrder;
      ghost var before := sessions;
      DisconnectStart(before, ids, socketId);
      for i := 0 to |ids|
        invariant sessions == WithoutOwned(before, ids[..i], socketId)
        invariant sessionOrder == KeptIds(ids[..i], before, socketId) + ids[i..]
      {
        DeleteStep(before, ids, i, socketId);
      }
      DisconnectLeavesValid(before, ids, socketId);
    }
  }
}

=== FILE: text.dfy ===
/**
 * The JavaScript string operations the screens rely on, over `seq<char>`:
 * `trim`, `toLowerCase` (ASCII letters only), `includes`, `replace` with a
 * string pattern (first occurrence only) and `split` on a one-character separator.
 */
module Text {
  import opened Wrappers

  /** The characters `String.prototype.trim` strips: ECMAScript WhiteSpace and LineTerminator. */
  predicate IsWhitespace(c: char) {
    c == ' ' || c == '\t' || c == '\n' || c == '\r' || c == '\U{000B}' || c == '\U{000C}' ||
    c == '\U{00A0}' || c == '\U{FEFF}' || c == '\U{1680}' || ('\U{2000}' <= c <= '\U{200A}') ||
    c == '\U{2028}' || c == '\U{2029}' || c == '\U{202F}' || c == '\U{205F}' || c == '\U{3000}'
  }

  /** Number of whitespace characters at the start of `s`. */
  function LeadingWhitespace(s: string): (n: nat)
    ensures n <= |s|
    ensures forall i :: 0 <= i < n ==> IsWhitespace(s[i])
    ensures n < |s| ==> !IsWhitespace(s[n])
    decreases |s|
  {
    if s != [] && IsWhitespace(s[0]) then 1 + LeadingWhitespace(s[1..]) else 0
  }

  /** Number of whitespace characters at the end of `s`. */
  function TrailingWhitespace(s: string): (n: nat)
    ensures n <= |s|
    ensures forall i :: |s| - n <= i < |s| ==> IsWhitespace(s[i])
    ensures n < |s| ==> !IsWhitespace(s[|s| - 1 - n])
    decreases |s|
  {
    if s != [] && IsWhitespace(s[|s| - 1]) then 1 + TrailingWhitespace(s[..|s| - 1]) else 0
  }

  /** `s.trim()`: the longest slice of `s` that neither starts nor ends with whitespace. */
  function Trim(s: string): (r: string)
    ensures LeadingWhitespace(s) + |r| <= |s|
    ensures r == s[LeadingWhitespace(s)..LeadingWhitespace(s) + |r|]
    ensures forall i :: LeadingWhitespace(s) + |r| <= i < |s| ==> IsWhitespace(s[i])
    ensures r == [] <==> forall i :: 0 <= i < |s| ==> IsWhitespace(s[i])
    ensures r != [] ==> !IsWhitespace(r[0]) && !IsWhitespace(r[|r| - 1])
  {
    var t := s[LeadingWhitespace(s)..];
    t[..|t| - TrailingWhitespace(t)]
  }

  /** Trimming twice trims no more than trimming once. */
  lemma TrimIdempotent(s: string)
    ensures Trim(Trim(s)) == Trim(s)
  {
    var r := Trim(s);
    if r != [] {
      assert LeadingWhitespace(r) == 0;
      assert TrailingWhitespace(r) == 0;
    }
  }

  /** `toLowerCase` on one character, for the ASCII letters. */
  function LowerChar(c: char): char {
    if 'A' <= c <= 'Z' then (c as int + 32) as char else c
  }

  /** `s.toLowerCase()`, for the ASCII letters: same length, each character lowered. */
  function ToLower(s: string): (r: string)
    ensures |r| == |s|
    ensures forall i :: 0 <= i < |s| ==> r[i] == LowerChar(s[i])
  {
    seq(|s|, i requires 0 <= i < |s| => LowerChar(s[i]))
  }

  /** A string that lowering leaves alone character by character is left alone as a whole. */
  lemma ToLowerOfLowered(s: string)
    requires forall i :: 0 <= i < |s| ==> LowerChar(s[i]) == s[i]
    ensures ToLower(s) == s
  {
  }

  /** `needle` occurs in `hay` starting at index `i`. */
  predicate OccursAt(hay: string, needle: string, i: nat) {
    i + |needle| <= |hay| && hay[i..i + |needle|] == needle
  }

  /** `hay.indexOf(needle, from)`: the first occurrence at or after `from`. */
  function IndexOf(hay: string, needle: string, from: nat): (r: Option<nat>)
    ensures r.Some? ==> from <= r.value && OccursAt(hay, needle, r.value)
    ensures r.Some? ==> forall j :: from <= j < r.value ==> !OccursAt(hay, needle, j)
    ensures r.None? ==> forall j :: from <= j ==> !OccursAt(hay, needle, j)
    decreases |hay| - from
  {
    if from + |needle| > |hay| then None
    else if hay[from..from + |needle|] == needle then Some(from)
    else IndexOf(hay, needle, from + 1)
  }

  /** `hay.includes(needle)`. */
  predicate Includes(hay: string, needle: string) {
    IndexOf(hay, needle, 0).Some?
  }

  /** `includes` holds exactly when the needle occurs somewhere. */
  lemma IncludesIff(hay: string, needle: string)
    ensures Includes(hay, needle) <==> exists i: nat :: OccursAt(hay, needle, i)
  {
    if Includes(hay, needle) {
      assert OccursAt(hay, needle, IndexOf(hay, needle, 0).value);
    }
  }

  /** `s.replace(pattern, replacement)` with a string pattern: only the first occurrence is replaced. */
  function ReplaceFirst(s: string, pattern: string, replacement: string): (r: string)
    ensures !Includes(s, pattern) ==> r == s
    ensures Includes(s, pattern) ==>
      exists k: nat :: OccursAt(s, pattern, k) && (forall j :: 0 <= j < k ==> !OccursAt(s, pattern, j)) &&
        r == s[..k] + replacement + s[k + |pattern|..]
  {
    match IndexOf(s, pattern, 0)
    case None => s
    case Some(k) => s[..k] + replacement + s[k + |pattern|..]
  }

  /** Index of the first `c` in `s`. */
  function CharIndex(s: string, c: char): (r: Option<nat>)
    ensures r.Some? ==> r.value < |s| && s[r.value] == c && c !in s[..r.value]
    ensures r.None? <==> c !in s
    decreases |s|
  {
    if s == [] then None
    else if s[0] == c then Some(0)
    else
      match CharIndex(s[1..], c)
      case None => None
      case Some(k) => assert s[..k + 1] == [s[0]] + s[1..][..k]; Some(k + 1)
  }

  /** `parts.join(sep)`. */
  function Join(parts: seq<string>, sep: char): string
    requires |parts| >= 1
    decreases |parts|
  {
    if |parts| == 1 then parts[0] else parts[0] + [sep] + Join(parts[1..], sep)
  }

  /** `s.split(sep)`: the pieces between separators; joining them back gives `s`. */
  function Split(s: string, sep: char): (parts: seq<string>)
    ensures |parts| >= 1
    ensures forall i :: 0 <= i < |parts| ==> sep !in parts[i]
    ensures Join(parts, sep) == s
    decreases |s|
  {
    match CharIndex(s, sep)
    case None => [s]
    case Some(k) =>
      var rest := Split(s[k + 1..], sep);
      assert s == s[..k] + [sep] + s[k + 1..];
      [s[..k]] + rest
  }

  /** Splitting a joined sequence of separator-free pieces gives the pieces back. */
  lemma {:induction false} SplitJoin(parts: seq<string>, sep: char)
    requires |parts| >= 1
    requires forall i :: 0 <= i < |parts| ==> sep !in parts[i]
    ensures Split(Join(parts, sep), sep) == parts
    decreases |parts|
  {
    if |parts| > 1 {
      var s := Join(parts, sep);
      var rest := Join(parts[1..], sep);
      assert s == parts[0] + [sep] + rest;
      assert s[|parts[0]|] == sep;
      assert s[..|parts[0]|] == parts[0];
      assert CharIndex(s, sep) == Some(|parts[0]|);
      assert s[|parts[0]| + 1..] == rest;
      SplitJoin(parts[1..], sep);
    } else {
      assert CharIndex(parts[0], sep) == None;
    }
  }
}

=== FILE: wrappers.dfy ===
/** The optional value used wherever the JavaScript code has `undefined` or a failed lookup. */
module Wrappers {
  datatype Option<+T> = None | Some(value: T)
}
